=== FILE: README.md ===
# K_C marketplace rules in Dafny

K_C is a marketplace web app for artisans: a shop, artisan profiles with a
photo gallery and reviews, favourites, an inbox, checkout, and an identity
verification flow. Most of it is glue between React components and a hosted
auth/database/storage service. The rules that sit inside its event handlers
are modelled here as pure functions over immutable datatypes, each with a
contract, together with lemmas about how they compose:

- **image checks** (`ImageVerification`): the traffic-light verdict on an
  upload's size and decoded dimensions, the timestamp check, and the content
  safety verdict;
- **identity verification** (`VerificationPage`): the selfie verdict that
  merges the quality and safety checks, replacing the chosen work samples,
  the order of the submission guards, the storage names, and the stored
  document list whose last element the admin dashboard shows as the selfie;
- **checkout** (`Checkout`): the shipping-status state machine (idle,
  checking, available, unavailable) driven by edits, check clicks and timer
  completions; the submission gate; the order row; the order items and the
  summary line totals;
- **shop filter** (`Marketplace`): the case-insensitive search over title
  and artisan name, the category filter, and the stock badge;
- **lightbox** (`Lightbox`): keyboard and button navigation through the
  gallery of a profile;
- **inbox** (`Inbox`): mark-as-read, opening a message, the unread counter;
- **gallery editor** (`Gallery`): the storage name of an upload, appending
  with a display order, the storage path of an image URL, and deletion;
- **favourite button** (`FavoriteButton`): the toggle and its counter,
  which never drops below zero;
- **favourites page** (`FavoritesPage`): splitting favourites into artisan
  and product ids and joining each with its fetched row;
- **reviews** (`Reviews`): the outcome of a submission, the average rating
  and the star display;
- **password update** (`UpdatePassword`): the validation order;
- **language context** (`Language`): the dotted-key lookup `t` with its
  fallback to the key, restoring the stored language, and choosing one.

Two shared modules hold the JavaScript behaviour the rules rely on: `Common`
(an `Option` type, truthiness of an optional string, `||` on optional
strings, subsequences) and `Strings` (`split` with its round trip through
`join`, `split(...).pop()`, `includes`, `indexOf`, `split(marker)[1]`, ASCII
lower-casing, and the decimal rendering of a timestamp).

Every call to the backend is an input: an upload either fails or yields a
path, an insert either fails, yields nothing, or yields its row, a fetch
either fails or yields its rows. The current time (`Date.now()`) and the
decoded dimensions of an image are parameters. A timer firing is an event.

Where JavaScript's behaviour is less tidy than the intent, the model
follows the code. In the lightbox, a selection whose id is not in the
gallery makes `findIndex` return -1: ArrowRight then selects the first
item, the previous button is hidden and the next button is shown
(`Lightbox.UnknownSelectionJumpsToFirst`). In the gallery editor, the new
item's display order is the current item count, so a deletion followed by
an upload repeats an order still in use (`Gallery.DeleteThenUploadRepeatsOrder`).

## Model

| member | source | states |
|---|---|---|
| ImageVerification.VerifyImageQuality | src/lib/image-verification.ts:13-66 | over 5 MiB is "File is too large" whatever the image; under 50 KiB is "Photo might be blurry" without looking at the image; otherwise an undecodable image is "Invalid Image", a side under 800 is "Low Resolution", else "Good Quality!"; the verdict is an error exactly for an oversized or undecodable file, and details are always present |
| ImageVerification.SizeBoundary | src/lib/image-verification.ts:15-22 | one byte over 5 MiB is rejected as too large for any decode outcome; exactly 5 MiB is not |
| ImageVerification.SmallFileIgnoresDimensions | src/lib/image-verification.ts:25-31 | below 50 KiB the verdict does not depend on the image at all |
| ImageVerification.CheckRecentWork | src/lib/image-verification.ts:73-95 | a warning ("Metadata Missing") exactly when the timestamp is older than twenty 365-day years before now, otherwise "Verified Recent"; never an error |
| ImageVerification.OldButNotAncientPasses | src/lib/image-verification.ts:77-80 | the one-year bound has no effect: a photo between one and twenty years old passes |
| ImageVerification.ContentSafety | src/lib/image-verification.ts:129-140 | the safety check always passes with "Safe Content" |
| VerificationPage.CombineSelfie | src/app/verification/page.tsx:43-48 | the selfie verdict is an error iff either check is, with the quality details when present and the safety details otherwise; a quality warning without errors is passed on unchanged; two successes give "Perfect!" |
| VerificationPage.SelfieVerdict | src/app/verification/page.tsx:40-48 | the selfie verdict is an error exactly when the file is oversized or, within the bounds, undecodable; a warning is the quality result itself; a success reads "Perfect!" |
| VerificationPage.SelfieVerdictFollowsQuality | src/app/verification/page.tsx:40-48 | since the safety check always passes, the selfie verdict has the status of the quality check, and a warning is the quality result itself |
| VerificationPage.HandleFileChange | src/app/verification/page.tsx:26-53 | an empty selection changes nothing; the id and selfie slots take the first file and its verdict; the work slot takes the whole list |
| VerificationPage.WorkSamplesReplaced | src/app/verification/page.tsx:51 | a second choice of work samples replaces the first instead of adding to it |
| VerificationPage.DocumentName | src/app/verification/page.tsx:68 | a document's storage name is the user id, a slash, the kind, an underscore, the decimal timestamp, an underscore and the original file name; so it starts with the user id and a slash and ends with the file name |
| VerificationPage.DistinctTimesDistinctNames | src/app/verification/page.tsx:68-86 | the same file uploaded at two different times gets two different storage names |
| VerificationPage.SamplePaths | src/app/verification/page.tsx:84-93 | the sample paths exist iff every sample upload succeeded, and they are those uploads' paths in upload order |
| VerificationPage.HandleUpload | src/app/verification/page.tsx:55-107 | a missing id proof is refused first, then a missing selfie, and with both files the page is never refused; the submission goes through iff both files are there, a user is signed in and every upload succeeds; the record carries the user, the id proof path and the document list |
| VerificationPage.AdminSelfieLink | src/app/admin/page.tsx:127 | the admin's selfie link is absent iff the document list is empty, and otherwise is the list's last element |
| VerificationPage.AdminSeesSelfie | src/app/admin/page.tsx:127 | the last stored document, which the admin dashboard links as the selfie, is the selfie upload's path |
| VerificationPage.SubmitIgnoresInsertFailure | src/app/verification/page.tsx:101-109 | as written, a failed insert of the verification record still reports success |
| VerificationPage.HandleUploadChecked | src/app/verification/page.tsx:101-110 | corrected submission: success only when the record was stored, otherwise the same outcome as before |
| Checkout.InitialForm | src/components/CheckoutForm.tsx:16-24 | the name starts as the account's full name when it is non-empty, else empty; phone, address, city, state, pincode and landmark start empty |
| Checkout.SetField | src/components/CheckoutForm.tsx:32 | the named field takes the value and every other field is unchanged |
| Checkout.HandleInputChange | src/components/CheckoutForm.tsx:30-35 | the named field takes the value, other fields are unchanged; editing the pincode resets the status to idle, editing anything else keeps it |
| Checkout.CheckShipping | src/components/CheckoutForm.tsx:37-42 | nothing happens for an empty pincode or one shorter than 6 UTF-16 code units; otherwise the status becomes checking and a completion is queued with the pincode as it is now |
| Checkout.WideCharactersStartCheck | src/components/CheckoutForm.tsx:38 | a pincode of three characters outside the Basic Multilingual Plane has length 6 and starts a check |
| Checkout.Verdict | src/components/CheckoutForm.tsx:44-48 | a check finds the pincode unavailable iff it is exactly "000000", and available otherwise |
| Checkout.TimerFires | src/components/CheckoutForm.tsx:42-49 | a completion sets the verdict of the pincode captured when the check started, whatever the form holds now |
| Checkout.RunKeepsPendingCheckable | src/components/CheckoutForm.tsx:38-42 | along any run, every queued completion carries a pincode that passed the length test |
| Checkout.StaleCheckMarksUncheckedPincode | src/components/CheckoutForm.tsx:34-49 | as written, a check of "123456" completing after the pincode was edited to "1" leaves "1" marked available |
| Checkout.TimerFiresChecked | src/components/CheckoutForm.tsx:42-49 | corrected completion: it sets the verdict only while the check is in progress for the pincode still in the form, and is dropped otherwise |
| Checkout.CheckedRunMatchesPincode | src/components/CheckoutForm.tsx:30-50 | with the corrected completion every run keeps the status true to the current pincode: available only for a checkable pincode other than "000000", unavailable only for "000000" |
| Checkout.CheckedFromInitial | src/components/CheckoutForm.tsx:16-50 | from the initial form, any sequence of edits, clicks and completions keeps the status true to the current pincode |
| Checkout.OrderItems | src/components/CheckoutForm.tsx:80-85 | one order item per cart line, in cart order, with the order id, the product id, the quantity and the price at the time |
| Checkout.SummaryLines | src/components/CheckoutForm.tsx:288 | one summary line per cart line, showing price times quantity |
| Checkout.SummaryMatchesOrderItems | src/components/CheckoutForm.tsx:80-85 | the summary lines add up to the value of the stored order items |
| Checkout.HandleSubmit | src/components/CheckoutForm.tsx:52-103 | nothing is sent unless the status is available; the order row carries the user, the form's name, phone, address, city, state, pincode and landmark, the cart total and "pending"; items are inserted only after the order; the order is placed iff both inserts succeed |
| Checkout.SubmitEnabled | src/components/CheckoutForm.tsx:255 | the button is enabled iff nothing is being submitted and shipping is available |
| Checkout.PlacedOrderHasCheckedPincode | src/components/CheckoutForm.tsx:54-72 | with the corrected completion, an order row is only ever sent for a pincode that passed the check |
| Marketplace.MatchesSearch | src/components/MarketplaceContent.tsx:38-39 | compared lower-cased, a product matches iff its title contains the query or it has an artisan profile whose full name contains it; so the empty query always matches, and without a profile only the title can match |
| Marketplace.MatchesCategory | src/components/MarketplaceContent.tsx:40 | "All" lets every product through; any other category lets through exactly the products of that category |
| Marketplace.FilterProducts | src/components/MarketplaceContent.tsx:36-43 | every listed product matches both the search and the category, every matching product is listed, and the listing is a subsequence of the products |
| Marketplace.FilterAppend | src/components/MarketplaceContent.tsx:37-42 | filtering goes product by product: the listing of a concatenation is the listings of the parts, one after the other, so duplicates are kept and the order is the original one |
| Marketplace.EmptyQueryMatches | src/components/MarketplaceContent.tsx:38 | the empty query matches every product |
| Marketplace.NoFilterShowsAll | src/components/MarketplaceContent.tsx:23-24 | with the initial empty query and "All", every product is shown, in order |
| Marketplace.FilterIdempotent | src/components/MarketplaceContent.tsx:37-42 | filtering the filtered list again changes nothing |
| Marketplace.StockBadge | src/components/MarketplaceContent.tsx:107-109 | the badge reads in stock iff the inventory count is positive, sold out otherwise |
| Lightbox.FindIndex | src/components/BehindTheScenes.tsx:37 | the position of the first item with the id, or -1 iff no item has it |
| Lightbox.HandleKeyDown | src/components/BehindTheScenes.tsx:33-44 | Escape clears the selection; with nothing selected nothing happens; ArrowLeft moves back one unless at the start, ArrowRight forward one unless at the end; other keys do nothing |
| Lightbox.PrevVisible | src/components/BehindTheScenes.tsx:119 | the previous button is shown iff the first item with the selected id is not at the start |
| Lightbox.NextVisible | src/components/BehindTheScenes.tsx:133 | the next button is shown iff the first item with the selected id is not the last, or no item has the id in a non-empty gallery |
| Lightbox.EmptyGalleryIsInert | src/components/BehindTheScenes.tsx:51 | an empty gallery renders nothing, shows neither button, and no key selects an item other than the current one |
| Lightbox.ClickPrev | src/components/BehindTheScenes.tsx:119-125 | the previous button, shown only when it has somewhere to go, does what ArrowLeft does and stays in the gallery |
| Lightbox.ClickNext | src/components/BehindTheScenes.tsx:133-139 | the next button, shown only when it has somewhere to go, does what ArrowRight does and stays in the gallery |
| Lightbox.EndsAreFixed | src/components/BehindTheScenes.tsx:38-42 | ArrowLeft on the first item and ArrowRight on the last leave the selection where it is |
| Lightbox.StaysInGallery | src/components/BehindTheScenes.tsx:33-44 | from an item of the gallery, any key leads to an item of the gallery or to no selection |
| Lightbox.UnknownSelectionJumpsToFirst | src/components/BehindTheScenes.tsx:37-41 | a selection not in a non-empty gallery moves to the first item on ArrowRight; only the next button is shown |
| Lightbox.PressRightWalks | src/components/BehindTheScenes.tsx:40-41 | with distinct ids, n presses of ArrowRight from item i reach item min(i + n, last) |
| Inbox.MarkAsRead | src/components/MessagesInbox.tsx:54-63 | the messages with the id become read; every other message, the length and the order are unchanged |
| Inbox.UnreadCount | src/components/MessagesInbox.tsx:72 | the unread counter never exceeds the number of messages |
| Inbox.UnreadCountIsUnreadPositions | src/components/MessagesInbox.tsx:72 | the counter equals the number of positions holding an unread message |
| Inbox.MarkAsReadIdempotent | src/components/MessagesInbox.tsx:60-62 | marking twice is marking once |
| Inbox.MarkAsReadNeverIncreases | src/components/MessagesInbox.tsx:60-62 | marking never raises the unread counter |
| Inbox.MarkAsReadPrefix | src/components/MessagesInbox.tsx:60-62 | marking acts message by message: marking a list and dropping its last message is marking the shorter list |
| Inbox.MarkUniqueUnreadDecrements | src/components/MessagesInbox.tsx:60-62 | marking an unread message whose id is unique lowers the counter by exactly one |
| Inbox.MarkAbsentUnchanged | src/components/MessagesInbox.tsx:60-62 | marking an id no message has changes nothing |
| Inbox.OpenMessage | src/components/MessagesInbox.tsx:65-70 | opening always selects the message, and marks it read only when it was unread |
| Inbox.OpenNeverIncreases | src/components/MessagesInbox.tsx:65-72 | opening a message never raises the unread counter |
| Gallery.StorageName | src/components/GalleryUpload.tsx:50-51 | the upload's storage name is the artisan id, a slash, the decimal timestamp, a dot and the text after the last dot of the file name (the whole name when it has no dot); its own last dot segment is that same extension |
| Gallery.HandleUpload | src/components/GalleryUpload.tsx:42-93 | no file does nothing; a failed upload sets its error and keeps the items; the row is requested with the public URL, the caption and the item count as display order; a failed insert sets its error; a stored row is appended, and only then do the items change |
| Gallery.UploadKeepsOrders | src/components/GalleryUpload.tsx:75-83 | while display orders equal positions, an upload keeps them so |
| Gallery.RemoveById | src/components/GalleryUpload.tsx:111 | removal keeps only items with another id, keeps every such item, keeps the order, and keeps the list when no item has the id |
| Gallery.RemoveByIdAppend | src/components/GalleryUpload.tsx:111 | removal goes item by item: removing from a concatenation is removing from each part, so duplicates with another id are all kept |
| Gallery.StoragePath | src/components/GalleryUpload.tsx:99 | the storage path exists iff the URL contains "/gallery/", and it is the text after the first occurrence of that marker, up to the next occurrence (even one that overlaps the text) or the end |
| Gallery.OverlappingMarkerCutsEarly | src/components/GalleryUpload.tsx:99 | for "u/gallery/a/gallery/gallery/b" the path is "a": the cut is at the next marker, not at a later one |
| Gallery.PathOfPublicUrl | src/components/GalleryUpload.tsx:64-75 | taking the path out of a public URL made of a base, "/gallery/" and a storage name gives the storage name back, when the marker first occurs after the base and not in the name |
| Gallery.DeleteItem | src/components/GalleryUpload.tsx:95-113 | without confirmation nothing happens; the file is removed from storage only when a non-empty path follows "/gallery/"; the item leaves the list only when the database delete succeeds |
| Gallery.DeleteThenUploadRepeatsOrder | src/components/GalleryUpload.tsx:75 | after deleting the first of two items, the next upload takes display order 1, which the remaining item already has |
| FavoriteButton.InitialCount | src/components/FavoriteButton.tsx:36-40 | the counter starts at the fetched count, or 0 when nothing was fetched; it is never negative |
| FavoriteButton.Toggle | src/components/FavoriteButton.tsx:68-107 | without a user the page redirects and nothing changes; a throwing call changes nothing; otherwise the favourite flips, adding raises the counter by one and removing lowers it to no less than zero |
| FavoriteButton.CountShown | src/components/FavoriteButton.tsx:121 | the counter is shown iff it was asked for and is positive |
| FavoriteButton.CountStaysNonNegative | src/components/FavoriteButton.tsx:17-99 | the counter stays non-negative across any sequence of clicks |
| FavoriteButton.TwoClicksRoundTrip | src/components/FavoriteButton.tsx:81-100 | two clean clicks restore the button exactly, except for a favourite whose counter was 0, which comes back at 1 |
| FavoritesPage.Ids | src/app/favorites/page.tsx:29-30 | the id list of a kind holds the non-empty id of that kind of every favourite, and nothing else |
| FavoritesPage.IdsAppend | src/app/favorites/page.tsx:29-30 | the id lists follow favourites order: the ids of a concatenation are the ids of each part in turn |
| FavoritesPage.BothKindsListed | src/app/favorites/page.tsx:29-30 | a favourite naming an artisan and a product is in both lists |
| FavoritesPage.FindRow | src/app/favorites/page.tsx:56 | the row found is the first fetched row with the id; nothing is found iff no row has the id |
| FavoritesPage.Join | src/app/favorites/page.tsx:53-63 | each entry keeps a favourite's id and creation time and carries a fetched row whose id is that favourite's id; every favourite whose row was fetched has its entry; no more entries than ids |
| FavoritesPage.JoinAppend | src/app/favorites/page.tsx:53-63 | joining keeps favourites order: the entries of a concatenation are the entries of each part in turn |
| FavoritesPage.RowsFor | src/app/favorites/page.tsx:33-50 | no ids means no rows; a failed fetch gives no rows; a successful fetch for some ids gives its rows |
| FavoritesPage.Load | src/app/favorites/page.tsx:17-63 | a failed favourites fetch gives two empty lists; each list is no longer than its ids and holds only fetched rows; when the rows of a kind were fetched, every favourite whose row is among them is shown in that kind's list |
| Reviews.HandleSubmit | src/components/CustomerReviews.tsx:67-108 | without a user nothing happens; an error with code 23505 says the artisan was already reviewed, any other error says the submission failed; on an error or an insert that returns no row the success message is cleared and the list, the rating, the comment and the open form are kept, so the user can submit again; a stored review goes to the front, the comment is cleared, the rating returns to 5 and the form closes |
| Reviews.AverageRating | src/components/CustomerReviews.tsx:110-112 | the average is 0 without reviews, and otherwise the number that times the count of reviews gives the sum of their ratings |
| Reviews.SumRatingsBounds | src/components/CustomerReviews.tsx:111 | with ratings in 1..5 the sum lies between the count and five times the count |
| Reviews.AverageInRange | src/components/CustomerReviews.tsx:110-112 | with ratings in 1..5, the average of a non-empty list lies in [1, 5] |
| Reviews.PrependSum | src/components/CustomerReviews.tsx:99 | prepending a review moves the sum of ratings by exactly its rating |
| Reviews.Stars | src/components/CustomerReviews.tsx:116-122 | five stars, star k filled iff k is at most the rating |
| Reviews.FilledStars | src/components/CustomerReviews.tsx:116-122 | the number of filled stars is the rating cut to 0..5 |
| UpdatePassword.HandleSubmit | src/app/update-password/page.tsx:15-67 | a mismatch is refused, then a password under 6 UTF-16 code units; the update is attempted iff both match, the length is at least 6 and a session exists; success iff the update is then accepted |
| UpdatePassword.WidePasswordAttempted | src/app/update-password/page.tsx:23-48 | a password of three characters outside the Basic Multilingual Plane has length 6, so with a session the update is attempted |
| UpdatePassword.AnswerOnlyMattersWhenAttempted | src/app/update-password/page.tsx:18-48 | the service's answer is consulted only after the local checks and the session check pass: any other outcome is the same for every answer, and whether the update is attempted does not depend on the answer |
| Language.FromCode | src_backup/context/language-context.tsx:20 | a code names a language iff it is "en", "hi" or "kn", and that language's code is it |
| Language.Walk | src_backup/context/language-context.tsx:35-41 | a walk that takes at least one step ends on a truthy value |
| Language.WalkAppend | src_backup/context/language-context.tsx:35-41 | walking a path made of two parts is walking the first and then the second from where it ended |
| Language.Translate | src_backup/context/language-context.tsx:31-43 | the lookup gives the value the key's segments lead to, or the key itself when a segment is missing or falsy; the result is the key or a truthy value |
| Language.DottedKeyNests | src_backup/context/language-context.tsx:32-41 | looking up "a.b" is looking up "b" inside whatever "a" leads to |
| Language.SingleSegment | src_backup/context/language-context.tsx:36-39 | a key without dots gives the entry of that name when it exists and is not the empty text, and the key otherwise |
| Language.Restore | src_backup/context/language-context.tsx:18-23 | a stored code of one of the three languages replaces the current language; no code or any other code keeps it |
| Language.SetLanguage | src_backup/context/language-context.tsx:25-28 | the chosen language becomes current and the stored code names it |
| Language.ChoiceSurvivesReload | src_backup/context/language-context.tsx:15-28 | a chosen language is restored after a reload that starts from English |
| Strings.Split | src_backup/context/language-context.tsx:32 | the pieces of a split contain no separator, there is at least one, and joining them gives back the string |
| Strings.LastSegment | src/components/GalleryUpload.tsx:50 | the text after the last separator: a suffix free of the separator that is either the whole string or preceded by a separator, so the longest such suffix |
| Strings.Includes | src/components/MarketplaceContent.tsx:38 | a string includes a query iff the query occurs at some position |
| Strings.IndexOf | src/components/GalleryUpload.tsx:99 | the first position where the marker occurs, or none iff it occurs nowhere |
| Strings.SplitSecond | src/components/GalleryUpload.tsx:99 | the second piece of a split on a marker exists iff the marker occurs; it starts right after the first occurrence and runs to the next occurrence or the end, no occurrence starting inside it |
| Strings.Utf16Length | src/app/update-password/page.tsx:23 | JavaScript `length`: one code unit for a character of the Basic Multilingual Plane and two for any other; so between one and two per character, exactly one each when all are in that plane |
| Strings.Utf16LengthAppend | src/app/update-password/page.tsx:23 | the length of a concatenation is the sum of the lengths, so the per-character count above fixes every length |
| Strings.Lower | src/components/MarketplaceContent.tsx:38-39 | lower-casing, in the model, keeps the length and lowers each ASCII capital |
| Strings.NatToString | src/components/GalleryUpload.tsx:51 | a timestamp renders as decimal digits without a leading zero |
| Strings.NatToStringRoundTrip | src/components/GalleryUpload.tsx:51 | the rendered digits read back as the timestamp |
| Common.OrElse | src/app/verification/page.tsx:44 | JavaScript `or` on optional text: the first when it is non-empty, the second otherwise, so the result is non-empty iff either is |

## Left out

- Every backend call (auth, database, storage) is an input to the model: whether an upload succeeded and the path it gave, whether an insert failed, returned nothing or returned its row, whether a fetch gave rows. The service's own behaviour is not modelled.
- Image decoding is a parameter (undecodable, or width and height); object URLs are not modelled.
- `simulateReverseImageSearch` is not modelled, because it is driven by `Math.random`; the delays of the simulated checks are left out too.
- `setTimeout` latency is not modelled: a completed shipping check is an event, and completions fire in the order the checks started. Interleavings of overlapping checks beyond that order are not explored.
- `Date.now()` is the parameter `now`.
- Floating point: prices and totals are exact reals, the average rating is an exact rational, and `toFixed(1)`, `toLocaleString` and `toLocaleDateString` rendering is not modelled.
- Marketplace.FilterProducts, Marketplace.MatchesSearch, Strings.Lower: `toLowerCase` is modelled for ASCII letters only, not for the full Unicode case mapping. The real mapping can also change the length of a string ("İ" becomes two code units), so the length the model's lower-casing keeps is a property of the model only.
- Marketplace.FilterProducts: a profile whose `full_name` is null (which would throw in the source) is not modelled; a profile always has a name.
- VerificationPage.SamplePaths: an upload that reports no error is taken to yield its path; the source skips a sample whose upload returned neither data nor error, which the service does not do.
- Gallery.HandleUpload: the three-second clearing of the success message and the reset of the file input are not modelled.
- Checkout.HandleInputChange: an input name that is not one of the seven fields adds a field in the source; the model keeps exactly the seven fields and ignores such a name.
- Language.Translate: descending into a text value with a further segment (JavaScript character indexing such as "0" or "length") and keys that hit object prototype properties are not modelled; a text value has no children.
- UpdatePassword.HandleSubmit: a session lookup that throws is not modelled separately; it ends in the same error alert as a throwing update.
- The cart context (items, total, clearing) is not part of this model; the cart and its total are inputs, and the model records whether the cart is cleared.
- Routing, redirects, navigation, page layout and other presentation are not modelled, except for the redirect of a signed-out favourite click.
- UpdatePassword.HandleSubmit: the browser's form validation is not modelled. Both inputs are `required` with `minLength={6}` (src/app/update-password/page.tsx:85-86, 100-101), so a typed password that is empty or shorter than 6 never reaches the handler. The model takes every submission to the handler, so its short-password outcomes describe the handler, not what the page shows.
- Checkout.HandleSubmit: the browser's form validation is not modelled. Name, phone, pincode, address, city and state are `required` (src/components/CheckoutForm.tsx:137, 149, 163, 209, 223, 234), so the page never submits with any of them empty, while the model sends an order whenever the status is available.
- Checkout.CheckShipping: the check button is disabled while a check runs or when the pincode is empty (src/components/CheckoutForm.tsx:175); the model accepts a click in those states too. A click on an empty pincode does nothing either way, and a click during a check queues a second completion, so the model allows more runs than the page. The pincode input also has `maxLength={6}` (line 164), so on the page only pincodes of exactly 6 code units can be checked, while the model accepts longer ones too. Both only add runs, so the invariants proved over all runs still hold for the page's runs.
- Inbox.OpenMessage, Inbox.MarkAsRead: each handler is treated as one atomic step on the current list. In the source, `markAsRead` awaits the update and then writes a map over the messages it captured when the message was opened (src/components/MessagesInbox.tsx:53-62). When two messages are opened before the first update resolves, the second write can overwrite the first, so the first message shows as unread again. These overlapping opens are not modelled.
- Strings.Utf16Length: a JavaScript string may hold an unpaired surrogate, which a Dafny string cannot; such strings are not modelled.

## Findings

| source | as written | input that shows it | evidently intended | confidence | as-written member | corrected member |
|---|---|---|---|---|---|---|
| src/components/CheckoutForm.tsx:42-49 | the timer callback sets the verdict for the pincode captured when the check started, even after the pincode was edited (which reset the status to idle) | enter "123456", click check, edit the pincode to "1" before the timer fires: status becomes available with pincode "1", and an order can be placed to it | a completion for a pincode no longer in the form, or after the status left checking, is ignored | not executed | Checkout.StaleCheckMarksUncheckedPincode | Checkout.CheckedRunMatchesPincode |
| src/app/verification/page.tsx:101-109 | the result of inserting the verification record is discarded, so the success alert follows whatever the insert answers | all uploads succeed and the insert into `verifications` returns an error: the page reports "Verification submitted successfully!" | report success only when the record was stored | not executed | VerificationPage.SubmitIgnoresInsertFailure | VerificationPage.HandleUploadChecked |

=== FILE: checkout.dfy ===
/** The checkout form: the delivery address fields, the shipping
    availability state machine (idle, checking, available, unavailable)
    that gates order submission, and the order rows built from the cart.

    The availability check is a timer that fires one second after the check
    starts and judges the pincode captured when it started. Timers all have
    the same delay, so they fire in the order they were started: the state
    keeps the captured pincodes of the timers still pending, oldest first,
    and `TimerFires` is the event of the oldest one firing. Database inserts
    are inputs that succeed or fail. */
module Checkout {
  import opened Common
  import Strings

  datatype Form = Form(
    fullName: string, phone: string, address: string, city: string,
    state: string, pincode: string, landmark: string)

  /** The form as first shown: the full name from the account metadata when
      it is truthy, every other field empty. */
  function InitialForm(metadataName: Option<string>): (r: Form)
    ensures Truthy(metadataName) ==> r.fullName == metadataName.value
    ensures !Truthy(metadataName) ==> r.fullName == ""
    ensures r.pincode == "" && r.phone == "" && r.address == ""
    ensures r.city == "" && r.state == "" && r.landmark == ""
  {
    Form(if Truthy(metadataName) then metadataName.value else "", "", "", "", "", "", "")
  }

  datatype Shipping = Idle | Checking | Available | Unavailable

  datatype State = State(form: Form, status: Shipping, pending: seq<string>)

  function Initial(metadataName: Option<string>): State
  {
    State(InitialForm(metadataName), Idle, [])
  }

  /** The value of the input called `name`, if the form has one. */
  function FieldValue(f: Form, name: string): Option<string>
  {
    match name
    case "fullName" => Some(f.fullName)
    case "phone" => Some(f.phone)
    case "address" => Some(f.address)
    case "city" => Some(f.city)
    case "state" => Some(f.state)
    case "pincode" => Some(f.pincode)
    case "landmark" => Some(f.landmark)
    case _ => None
  }

  /** The form with the input called `name` set to `value`; a name the form
      does not have is stored as an extra key nobody reads, so the fields
      are unchanged. */
  function SetField(f: Form, name: string, value: string): (r: Form)
    ensures FieldValue(f, name).Some? ==> FieldValue(r, name) == Some(value)
    ensures forall other :: other != name ==> FieldValue(r, other) == FieldValue(f, other)
  {
    match name
    case "fullName" => f.(fullName := value)
    case "phone" => f.(phone := value)
    case "address" => f.(address := value)
    case "city" => f.(city := value)
    case "state" => f.(state := value)
    case "pincode" => f.(pincode := value)
    case "landmark" => f.(landmark := value)
    case _ => f
  }

  /** Typing in an input updates that field; typing in the pincode input
      also resets the availability to idle. */
  function HandleInputChange(s: State, name: string, value: string): (r: State)
    ensures FieldValue(s.form, name).Some? ==> FieldValue(r.form, name) == Some(value)
    ensures forall other :: other != name ==> FieldValue(r.form, other) == FieldValue(s.form, other)
    ensures name == "pincode" ==> r.status == Idle
    ensures name != "pincode" ==> r.status == s.status
    ensures r.pending == s.pending
  {
    var form := SetField(s.form, name, value);
    if name == "pincode" then s.(form := form, status := Idle) else s.(form := form)
  }

  /** A pincode long enough to be checked: JavaScript's `length` counts
      UTF-16 code units. */
  predicate Checkable(pincode: string)
  {
    pincode != "" && Strings.Utf16Length(pincode) >= 6
  }

  /** Starting a check: nothing happens for an empty or short pincode;
      otherwise the status becomes checking and a timer is started with the
      current pincode. The page disables the button while a check runs; the
      model also accepts a click then, which only adds runs, so what holds
      for every run of the model holds for the page. */
  function CheckShipping(s: State): (r: State)
    ensures !Checkable(s.form.pincode) ==> r == s
    ensures Checkable(s.form.pincode) ==>
              r.status == Checking && r.form == s.form && r.pending == s.pending + [s.form.pincode]
  {
    if s.form.pincode == "" || Strings.Utf16Length(s.form.pincode) < 6 then s
    else s.(status := Checking, pending := s.pending + [s.form.pincode])
  }

  /** Length is counted as JavaScript counts it: three characters outside
      the Basic Multilingual Plane are six code units, enough to start a
      check. */
  lemma WideCharactersStartCheck(s: State)
    requires s.form.pincode == "\U{1F600}\U{1F600}\U{1F600}"
    ensures CheckShipping(s).status == Checking
  {
    var p := s.form.pincode;
    assert p[1..] == "\U{1F600}\U{1F600}" && p[1..][1..] == "\U{1F600}" && p[1..][1..][1..] == "";
    assert Strings.Utf16Length(p[1..][1..]) == 2;
    assert Strings.Utf16Length(p[1..]) == 4;
    assert Strings.Utf16Length(p) == 6;
  }

  /** The verdict of a completed check on the pincode it captured: only
      "000000" is refused; no digit validation is performed. */
  function Verdict(captured: string): (r: Shipping)
    ensures r == Unavailable <==> captured == "000000"
    ensures r == Available <==> captured != "000000"
  {
    if captured == "000000" then Unavailable else Available
  }

  /** The oldest pending timer fires and sets the status from the pincode
      it captured, whatever the status and the pincode are now. */
  function TimerFires(s: State): (r: State)
    ensures |s.pending| == 0 ==> r == s
    ensures |s.pending| > 0 ==>
              r.status == Verdict(s.pending[0]) && r.form == s.form && r.pending == s.pending[1..]
  {
    if |s.pending| == 0 then s
    else s.(status := Verdict(s.pending[0]), pending := s.pending[1..])
  }

  datatype Event = Edit(name: string, value: string) | CheckClicked | Timer

  function Step(s: State, e: Event): State
  {
    match e
    case Edit(n, v) => HandleInputChange(s, n, v)
    case CheckClicked => CheckShipping(s)
    case Timer => TimerFires(s)
  }

  function Run(s: State, events: seq<Event>): State
    decreases |events|
  {
    if |events| == 0 then s else Run(Step(s, events[0]), events[1..])
  }

  /** Every pending timer captured a checkable pincode: the guard of
      `CheckShipping` is what puts a pincode on the queue. */
  predicate PendingCheckable(s: State)
  {
    forall i :: 0 <= i < |s.pending| ==> Checkable(s.pending[i])
  }

  lemma {:induction false} RunKeepsPendingCheckable(s: State, events: seq<Event>)
    requires PendingCheckable(s)
    ensures PendingCheckable(Run(s, events))
    decreases |events|
  {
    if |events| > 0 {
      var s' := Step(s, events[0]);
      assert PendingCheckable(s') by {
        match events[0]
        case Edit(n, v) =>
        case CheckClicked =>
        case Timer =>
          if |s.pending| > 0 {
            assert forall i :: 0 <= i < |s'.pending| ==> s'.pending[i] == s.pending[i + 1];
          }
      }
      RunKeepsPendingCheckable(s', events[1..]);
    }
  }

  /** The address the order ships to has been judged deliverable: the
      status is available only for a checkable pincode other than "000000",
      and unavailable only for "000000". */
  predicate StatusMatchesPincode(s: State)
  {
    && (s.status == Available ==> Checkable(s.form.pincode) && s.form.pincode != "000000")
    && (s.status == Unavailable ==> s.form.pincode == "000000")
  }

  /** As written, the invariant fails: a check started for "123456" that
      fires after the pincode was edited to "1" marks the short, unchecked
      pincode available, and submission is then allowed. */
  lemma StaleCheckMarksUncheckedPincode()
    ensures var s := Run(Initial(None), [Edit("pincode", "123456"), CheckClicked, Edit("pincode", "1"), Timer]);
            s.status == Available && s.form.pincode == "1" && !StatusMatchesPincode(s)
  {
    var s0 := Initial(None);
    var s1 := Step(s0, Edit("pincode", "123456"));
    assert s1.form.pincode == "123456";
    var s2 := Step(s1, CheckClicked);
    assert s2.pending == ["123456"];
    var s3 := Step(s2, Edit("pincode", "1"));
    var s4 := Step(s3, Timer);
    assert s4.status == Available && s4.form.pincode == "1";
    assert Run(s0, [Edit("pincode", "123456"), CheckClicked, Edit("pincode", "1"), Timer]) == s4 by {
      var evs := [Edit("pincode", "123456"), CheckClicked, Edit("pincode", "1"), Timer];
      assert evs[1..] == [CheckClicked, Edit("pincode", "1"), Timer];
      assert evs[2..] == [Edit("pincode", "1"), Timer];
      assert evs[3..] == [Timer];
      assert Run(s0, evs) == Run(s1, evs[1..]);
      assert Run(s1, evs[1..]) == Run(s2, evs[2..]);
      assert Run(s2, evs[2..]) == Run(s3, evs[3..]);
      assert Run(s3, evs[3..]) == Run(s4, evs[4..]);
    }
  }

  /** The completion as evidently intended: a timer whose pincode is no
      longer the one in the form, or that fires when no check is in
      progress, is discarded without changing the status. */
  function TimerFiresChecked(s: State): (r: State)
    ensures |s.pending| == 0 ==> r == s
    ensures |s.pending| > 0 ==> r.form == s.form && r.pending == s.pending[1..]
    ensures |s.pending| > 0 && s.status == Checking && s.pending[0] == s.form.pincode ==>
              r.status == Verdict(s.pending[0])
    ensures |s.pending| > 0 && !(s.status == Checking && s.pending[0] == s.form.pincode) ==>
              r.status == s.status
  {
    if |s.pending| == 0 then s
    else if s.status == Checking && s.pending[0] == s.form.pincode then TimerFires(s)
    else s.(pending := s.pending[1..])
  }

  function StepChecked(s: State, e: Event): State
  {
    match e
    case Edit(n, v) => HandleInputChange(s, n, v)
    case CheckClicked => CheckShipping(s)
    case Timer => TimerFiresChecked(s)
  }

  function RunChecked(s: State, events: seq<Event>): State
    decreases |events|
  {
    if |events| == 0 then s else RunChecked(StepChecked(s, events[0]), events[1..])
  }

  /** With stale timers discarded, the status always describes the pincode
      in the form, from the initial state along any sequence of events. */
  lemma {:induction false} CheckedRunMatchesPincode(s: State, events: seq<Event>)
    requires PendingCheckable(s) && StatusMatchesPincode(s)
    ensures PendingCheckable(RunChecked(s, events)) && StatusMatchesPincode(RunChecked(s, events))
    decreases |events|
  {
    if |events| > 0 {
      var s' := StepChecked(s, events[0]);
      assert PendingCheckable(s') && StatusMatchesPincode(s') by {
        match events[0]
        case Edit(n, v) =>
          assert FieldValue(s'.form, "pincode") == FieldValue(s.form, "pincode") || n == "pincode";
        case CheckClicked =>
        case Timer =>
          if |s.pending| > 0 {
            assert forall i :: 0 <= i < |s'.pending| ==> s'.pending[i] == s.pending[i + 1];
            assert Checkable(s.pending[0]);
          }
      }
      CheckedRunMatchesPincode(s', events[1..]);
    }
  }

  lemma CheckedFromInitial(metadataName: Option<string>, events: seq<Event>)
    ensures StatusMatchesPincode(RunChecked(Initial(metadataName), events))
  {
    CheckedRunMatchesPincode(Initial(metadataName), events);
  }

  // -----------------------------------------------------------------------
  // the order

  /** A cart line as the cart provides it. */
  datatype CartItem = CartItem(id: string, title: string, price: real, quantity: int)

  datatype OrderRow = OrderRow(
    userId: string, fullName: string, phoneNumber: string, addressLine1: string,
    city: string, state: string, pincode: string, landmark: string,
    totalAmount: real, status: string)

  datatype OrderItem = OrderItem(orderId: string, productId: string, quantity: int, priceAtTime: real)

  /** What the orders insert answers: a failure, or the new order's id. */
  datatype OrderInsert = OrderInsertFailed | OrderInserted(orderId: string)

  /** What a submit does: the order row it inserts (if any), the item rows
      it inserts (if any), and whether the order was placed (the cart is
      cleared and the success screen shown). */
  datatype Submission = Submission(order: Option<OrderRow>, items: Option<seq<OrderItem>>, placed: bool)

  /** One order item per cart line, in cart order. */
  function OrderItems(orderId: string, cart: seq<CartItem>): (r: seq<OrderItem>)
    ensures |r| == |cart|
    ensures forall i :: 0 <= i < |cart| ==>
              r[i].orderId == orderId && r[i].productId == cart[i].id &&
              r[i].quantity == cart[i].quantity && r[i].priceAtTime == cart[i].price
  {
    seq(|cart|, i requires 0 <= i < |cart| => OrderItem(orderId, cart[i].id, cart[i].quantity, cart[i].price))
  }

  /** The amount each summary line shows. */
  function SummaryLines(cart: seq<CartItem>): (r: seq<real>)
    ensures |r| == |cart|
    ensures forall i :: 0 <= i < |cart| ==> r[i] == cart[i].price * cart[i].quantity as real
  {
    seq(|cart|, i requires 0 <= i < |cart| => cart[i].price * cart[i].quantity as real)
  }

  function Sum(xs: seq<real>): real
  {
    if |xs| == 0 then 0.0 else xs[0] + Sum(xs[1..])
  }

  /** The value recorded in the order items. */
  function ItemsValue(items: seq<OrderItem>): real
  {
    if |items| == 0 then 0.0 else items[0].priceAtTime * items[0].quantity as real + ItemsValue(items[1..])
  }

  lemma SummaryLinesTail(cart: seq<CartItem>)
    requires |cart| > 0
    ensures SummaryLines(cart)[1..] == SummaryLines(cart[1..])
  {
    var a, b := SummaryLines(cart)[1..], SummaryLines(cart[1..]);
    assert forall i :: 0 <= i < |a| ==> a[i] == b[i];
  }

  lemma OrderItemsTail(orderId: string, cart: seq<CartItem>)
    requires |cart| > 0
    ensures OrderItems(orderId, cart)[1..] == OrderItems(orderId, cart[1..])
  {
    var a, b := OrderItems(orderId, cart)[1..], OrderItems(orderId, cart[1..]);
    assert forall i :: 0 <= i < |a| ==> a[i] == b[i];
  }

  /** The summary the customer sees adds up to the value the order items
      record. */
  lemma {:induction false} SummaryMatchesOrderItems(orderId: string, cart: seq<CartItem>)
    ensures Sum(SummaryLines(cart)) == ItemsValue(OrderItems(orderId, cart))
    decreases |cart|
  {
    if |cart| > 0 {
      var lines, items := SummaryLines(cart), OrderItems(orderId, cart);
      SummaryMatchesOrderItems(orderId, cart[1..]);
      SummaryLinesTail(cart);
      OrderItemsTail(orderId, cart);
      assert lines[0] == items[0].priceAtTime * items[0].quantity as real;
      assert Sum(lines) == lines[0] + Sum(lines[1..]);
      assert ItemsValue(items) == items[0].priceAtTime * items[0].quantity as real + ItemsValue(items[1..]);
    }
  }

  /** Submitting: nothing happens unless the status is available; then the
      order row is inserted with the form's address, the cart total and
      status "pending"; only if that succeeds are the item rows inserted;
      and only if both succeed is the order placed and the cart cleared. */
  function HandleSubmit(s: State, userId: string, cart: seq<CartItem>, total: real,
                        orderInsert: OrderInsert, itemsOk: bool): (r: Submission)
    ensures s.status != Available ==> r == Submission(None, None, false)
    ensures r.order.Some? <==> s.status == Available
    ensures r.order.Some? ==>
              r.order.value.status == "pending" && r.order.value.totalAmount == total &&
              r.order.value.userId == userId && r.order.value.pincode == s.form.pincode &&
              r.order.value.fullName == s.form.fullName
    ensures r.order.Some? ==>
              r.order.value.phoneNumber == s.form.phone && r.order.value.addressLine1 == s.form.address &&
              r.order.value.city == s.form.city && r.order.value.state == s.form.state &&
              r.order.value.landmark == s.form.landmark
    ensures r.items.Some? <==> s.status == Available && orderInsert.OrderInserted?
    ensures r.items.Some? ==> r.items.value == OrderItems(orderInsert.orderId, cart)
    ensures r.placed <==> s.status == Available && orderInsert.OrderInserted? && itemsOk
  {
    if s.status != Available then Submission(None, None, false)
    else
      var f := s.form;
      var row := OrderRow(userId, f.fullName, f.phone, f.address, f.city, f.state, f.pincode, f.landmark,
                          total, "pending");
      match orderInsert
      case OrderInsertFailed => Submission(Some(row), None, false)
      case OrderInserted(id) => Submission(Some(row), Some(OrderItems(id, cart)), itemsOk)
  }

  /** The submit button is enabled only while nothing is being submitted
      and shipping is available. */
  function SubmitEnabled(isSubmitting: bool, status: Shipping): (r: bool)
    ensures r ==> status == Available
    ensures r <==> !isSubmitting && status == Available
  {
    !isSubmitting && status == Available
  }

  /** With stale timers discarded, an order is only ever placed for an
      address whose pincode passed the availability check. */
  lemma PlacedOrderHasCheckedPincode(metadataName: Option<string>, events: seq<Event>, userId: string,
                                     cart: seq<CartItem>, total: real, orderInsert: OrderInsert, itemsOk: bool)
    ensures var r := HandleSubmit(RunChecked(Initial(metadataName), events), userId, cart, total, orderInsert, itemsOk);
            r.order.Some? ==> Checkable(r.order.value.pincode) && r.order.value.pincode != "000000"
  {
    CheckedFromInitial(metadataName, events);
  }
}

=== FILE: common.dfy ===
/** Small shared vocabulary: optional values and JavaScript truthiness of
    optional strings. */
module Common {

  /** An optional value; `None` stands for JavaScript's `null` / `undefined`. */
  datatype Option<+T> = None | Some(value: T)

  /** JavaScript truthiness of a string that may be absent: `undefined`,
      `null` and the empty string are falsy, every other string is truthy. */
  predicate Truthy(o: Option<string>)
  {
    o.Some? && o.value != ""
  }

  /** JavaScript `a || b` on optional strings: `a` when it is truthy,
      otherwise `b` unchanged (which may itself be falsy). */
  function OrElse(a: Option<string>, b: Option<string>): (r: Option<string>)
    ensures Truthy(a) ==> r == a
    ensures !Truthy(a) ==> r == b
    ensures Truthy(r) <==> Truthy(a) || Truthy(b)
  {
    if Truthy(a) then a else b
  }

  /** `a` is `b` with some elements left out, the rest in their order. */
  predicate IsSubsequence<T(==)>(a: seq<T>, b: seq<T>)
    decreases |b|
  {
    if |a| == 0 then true
    else if |b| == 0 then false
    else (a[0] == b[0] && IsSubsequence(a[1..], b[1..])) || IsSubsequence(a, b[1..])
  }
}

=== FILE: favorite_button.dfy ===
/** The heart button on an artisan card: the toggle that adds or removes the
    artisan from the signed-in user's favourites, the favourite counter
    (never below zero), and when the counter is shown. The database calls'
    answers are not inspected by the button; only a call that throws stops
    the state from changing. */
module FavoriteButton {

  datatype State = State(signedIn: bool, isFavorite: bool, count: int)

  /** The counter as first loaded: the fetched count, or 0 when the fetch
      gave nothing. */
  function InitialCount(fetched: int, fetchedSomething: bool): (c: int)
    requires fetched >= 0
    ensures c >= 0
    ensures fetchedSomething ==> c == fetched
    ensures !fetchedSomething ==> c == 0
  {
    if fetchedSomething then fetched else 0
  }

  /** What a click does: the next state, and whether the page is sent to
      the sign-in screen instead. */
  datatype Click = Click(state: State, redirected: bool)

  /** A click: without a user, a redirect and no change; if the database
      call throws, no change; otherwise the favourite flips, and the counter
      goes up by one on adding and down by one (not below zero) on removing. */
  function Toggle(s: State, threw: bool): (r: Click)
    ensures !s.signedIn ==> r == Click(s, true)
    ensures s.signedIn ==> !r.redirected
    ensures s.signedIn && threw ==> r.state == s
    ensures s.signedIn && !threw ==> r.state.isFavorite == !s.isFavorite && r.state.signedIn
    ensures s.signedIn && !threw && s.isFavorite ==> r.state.count == if s.count > 1 then s.count - 1 else 0
    ensures s.signedIn && !threw && !s.isFavorite ==> r.state.count == s.count + 1
    ensures s.count >= 0 ==> r.state.count >= 0
  {
    if !s.signedIn then Click(s, true)
    else if threw then Click(s, false)
    else if s.isFavorite then Click(State(true, false, Max(0, s.count - 1)), false)
    else Click(State(true, true, s.count + 1), false)
  }

  function Max(a: int, b: int): int
  {
    if a >= b then a else b
  }

  /** The counter is shown only when asked for and positive. */
  function CountShown(showCount: bool, count: int): (shown: bool)
    ensures shown ==> count > 0
    ensures shown <==> showCount && count >= 1
  {
    showCount && count > 0
  }

  /** A run of clicks; `throws[i]` says whether the i-th click's database
      call throws. */
  function Clicks(s: State, throws: seq<bool>): State
    decreases |throws|
  {
    if |throws| == 0 then s else Clicks(Toggle(s, throws[0]).state, throws[1..])
  }

  /** The counter never goes negative, whatever the clicks. */
  lemma {:induction false} CountStaysNonNegative(s: State, throws: seq<bool>)
    requires s.count >= 0
    ensures Clicks(s, throws).count >= 0
    decreases |throws|
  {
    if |throws| > 0 {
      CountStaysNonNegative(Toggle(s, throws[0]).state, throws[1..]);
    }
  }

  /** Two clean clicks bring the button back to where it was, unless it
      started as a favourite with a zero counter (the counter is not loaded
      when it is not shown): then the removal clamps at zero and the re-add
      leaves the counter at one. */
  lemma TwoClicksRoundTrip(s: State)
    requires s.signedIn && s.count >= 0
    ensures var back := Toggle(Toggle(s, false).state, false).state;
            back == s <==> !(s.isFavorite && s.count == 0)
  {
  }
}

=== FILE: favorites_page.dfy ===
/** The favourites page: the user's favourites are split into the artisan
    ids and the product ids they name, those rows are fetched, and each
    favourite is joined with its fetched row; favourites whose row was not
    fetched are dropped. Fetches are inputs (`None` for a failed fetch). */
module FavoritesPage {
  import opened Common

  /** A favourite names an artisan, a product, or both (either id may be
      missing or empty). */
  datatype Favorite = Favorite(id: string, createdAt: string, artisanId: Option<string>, productId: Option<string>)

  datatype Kind = ArtisanKind | ProductKind

  /** A fetched profile or product row: its id and the other columns. */
  datatype Row = Row(id: string, columns: map<string, string>)

  /** A favourite joined with its row. */
  datatype Entry = Entry(id: string, createdAt: string, row: Row)

  function KeyOf(f: Favorite, kind: Kind): Option<string>
  {
    match kind
    case ArtisanKind => f.artisanId
    case ProductKind => f.productId
  }

  /** The ids of one kind named by the favourites, in favourites order. */
  function Ids(favs: seq<Favorite>, kind: Kind): (r: seq<string>)
    ensures |r| <= |favs|
    ensures forall i :: 0 <= i < |favs| && Truthy(KeyOf(favs[i], kind)) ==> KeyOf(favs[i], kind).value in r
    ensures forall x :: x in r ==> x != "" && exists i :: 0 <= i < |favs| && KeyOf(favs[i], kind) == Some(x)
    decreases |favs|
  {
    if |favs| == 0 then []
    else
      var rest := Ids(favs[1..], kind);
      assert forall i :: 1 <= i < |favs| ==> favs[i] == favs[1..][i - 1];
      if Truthy(KeyOf(favs[0], kind)) then [KeyOf(favs[0], kind).value] + rest else rest
  }

  /** The id lists keep favourites order: the ids of a concatenation are
      the ids of each part. */
  lemma {:induction false} IdsAppend(a: seq<Favorite>, b: seq<Favorite>, kind: Kind)
    ensures Ids(a + b, kind) == Ids(a, kind) + Ids(b, kind)
    decreases |a|
  {
    if |a| == 0 {
      assert a + b == b;
    } else {
      assert (a + b)[0] == a[0];
      assert (a + b)[1..] == a[1..] + b;
      IdsAppend(a[1..], b, kind);
    }
  }

  /** A favourite naming both an artisan and a product is in both lists. */
  lemma BothKindsListed(favs: seq<Favorite>, i: nat)
    requires i < |favs|
    requires Truthy(favs[i].artisanId) && Truthy(favs[i].productId)
    ensures favs[i].artisanId.value in Ids(favs, ArtisanKind)
    ensures favs[i].productId.value in Ids(favs, ProductKind)
  {
    assert KeyOf(favs[i], ArtisanKind) == favs[i].artisanId;
    assert KeyOf(favs[i], ProductKind) == favs[i].productId;
  }

  /** JavaScript `find` by id: the first row with the id. */
  function FindRow(rows: seq<Row>, id: string): (r: Option<Row>)
    ensures r.Some? ==> r.value in rows && r.value.id == id
    ensures r.None? <==> forall i :: 0 <= i < |rows| ==> rows[i].id != id
    ensures r.Some? ==> exists i :: 0 <= i < |rows| && rows[i] == r.value &&
                                    forall j :: 0 <= j < i ==> rows[j].id != id
    decreases |rows|
  {
    if |rows| == 0 then None
    else if rows[0].id == id then Some(rows[0])
    else
      assert forall i :: 1 <= i < |rows| ==> rows[i] == rows[1..][i - 1];
      FindRow(rows[1..], id)
  }

  /** The joined entry of one favourite, if it names a row that was fetched. */
  function EntryOf(f: Favorite, kind: Kind, rows: seq<Row>): Option<Entry>
  {
    if !Truthy(KeyOf(f, kind)) then None
    else match FindRow(rows, KeyOf(f, kind).value)
      case None => None
      case Some(row) => Some(Entry(f.id, f.createdAt, row))
  }

  /** The joined entries, in favourites order. */
  function Join(favs: seq<Favorite>, kind: Kind, rows: seq<Row>): (r: seq<Entry>)
    ensures |r| <= |Ids(favs, kind)|
    ensures forall e :: e in r ==> e.row in rows
    ensures forall e :: e in r ==>
              exists i :: 0 <= i < |favs| && e.id == favs[i].id && e.createdAt == favs[i].createdAt &&
                          KeyOf(favs[i], kind) == Some(e.row.id)
    ensures forall i :: 0 <= i < |favs| && EntryOf(favs[i], kind, rows).Some? ==>
              EntryOf(favs[i], kind, rows).value in r
    decreases |favs|
  {
    if |favs| == 0 then []
    else
      var rest := Join(favs[1..], kind, rows);
      assert forall i :: 1 <= i < |favs| ==> favs[i] == favs[1..][i - 1];
      match EntryOf(favs[0], kind, rows)
      case None => rest
      case Some(e) => [e] + rest
  }

  /** Joining is done favourite by favourite: the entries of a concatenation
      are the entries of each part, so the order of favourites is kept. */
  lemma {:induction false} JoinAppend(a: seq<Favorite>, b: seq<Favorite>, kind: Kind, rows: seq<Row>)
    ensures Join(a + b, kind, rows) == Join(a, kind, rows) + Join(b, kind, rows)
    decreases |a|
  {
    if |a| == 0 {
      assert a + b == b;
    } else {
      assert (a + b)[0] == a[0];
      assert (a + b)[1..] == a[1..] + b;
      JoinAppend(a[1..], b, kind, rows);
    }
  }

  /** The rows used for one kind: fetched only when some id of that kind
      exists, and nothing when the fetch fails. */
  function RowsFor(ids: seq<string>, fetched: Option<seq<Row>>): (r: seq<Row>)
    ensures |ids| == 0 ==> r == []
    ensures |ids| > 0 && fetched.Some? ==> r == fetched.value
    ensures fetched.None? ==> r == []
  {
    if |ids| > 0 && fetched.Some? then fetched.value else []
  }

  datatype Page = Page(artisans: seq<Entry>, products: seq<Entry>)

  /** The page data: no favourites (a failed fetch) gives two empty lists. */
  function Load(favorites: Option<seq<Favorite>>, artisanRows: Option<seq<Row>>,
                productRows: Option<seq<Row>>): (p: Page)
    ensures favorites.None? ==> p == Page([], [])
    ensures favorites.Some? ==>
              |p.artisans| <= |Ids(favorites.value, ArtisanKind)| &&
              |p.products| <= |Ids(favorites.value, ProductKind)|
    ensures forall e :: e in p.artisans ==> artisanRows.Some? && e.row in artisanRows.value
    ensures forall e :: e in p.products ==> productRows.Some? && e.row in productRows.value
    ensures favorites.Some? && artisanRows.Some? ==>
              forall f :: f in favorites.value && EntryOf(f, ArtisanKind, artisanRows.value).Some? ==>
                EntryOf(f, ArtisanKind, artisanRows.value).value in p.artisans
    ensures favorites.Some? && productRows.Some? ==>
              forall f :: f in favorites.value && EntryOf(f, ProductKind, productRows.value).Some? ==>
                EntryOf(f, ProductKind, productRows.value).value in p.products
  {
    var favs := if favorites.Some? then favorites.value else [];
    var artisanIds := Ids(favs, ArtisanKind);
    var productIds := Ids(favs, ProductKind);
    Page(Join(favs, ArtisanKind, RowsFor(artisanIds, artisanRows)),
         Join(favs, ProductKind, RowsFor(productIds, productRows)))
  }
}

=== FILE: gallery.dfy ===
/** The artisan's gallery editor: uploading a photo (storage name, the row
    inserted with its display order, the list append) and deleting one (the
    storage path taken from the public URL, the list filter). Storage and
    database calls are inputs that succeed or fail; the confirmation dialog
    is an input too. */
module Gallery {
  import opened Common
  import opened Strings

  datatype Item = Item(id: string, imageUrl: string, caption: string, displayOrder: int)

  /** The row the upload asks the database to insert. */
  datatype NewItem = NewItem(artisanId: string, imageUrl: string, caption: string, displayOrder: nat)

  /** What the insert answers: an error, no row, or the stored row. */
  datatype InsertAnswer = InsertFailed | InsertedNothing | Inserted(row: Item)

  datatype State = State(items: seq<Item>, caption: string, error: string, success: string)

  const UploadError := "Failed to upload image. Please try again."
  const SaveError := "Failed to save gallery item."
  const Uploaded := "Image uploaded successfully!"

  /** The storage name of an uploaded photo: `<artisan>/<timestamp>.<ext>`,
      where the extension is what follows the last '.' of the file name (the
      whole name when it has no '.'). */
  function StorageName(artisanId: string, now: nat, fileName: string): (r: string)
    ensures r == artisanId + "/" + NatToString(now) + "." + LastSegment(fileName, '.')
    ensures IsPrefix(artisanId + "/", r)
    ensures LastSegment(r, '.') == LastSegment(fileName, '.')
    ensures '.' !in fileName ==> LastSegment(r, '.') == fileName
  {
    var ext := LastSegment(fileName, '.');
    var stem := artisanId + "/" + NatToString(now);
    var r := stem + "." + ext;
    assert r[..|artisanId + "/"|] == artisanId + "/";
    SplitConcat(stem, '.', ext);
    SplitNoSep(ext, '.');
    assert r == stem + ['.'] + ext;
    assert '.' in r by { assert r[|stem|] == '.'; }
    r
  }

  /** What one upload does: the storage name (when a file was chosen), the
      row it asks to insert (when the storage upload succeeded), and the
      resulting state. */
  datatype UploadStep = UploadStep(storageName: Option<string>, request: Option<NewItem>, state: State)

  /** Uploading the chosen file. No file: nothing happens. A storage
      failure: an error, no insert. Otherwise a row is inserted with display
      order equal to the current item count; an insert error leaves the list
      unchanged; a stored row is appended and the caption cleared. */
  function HandleUpload(s: State, artisanId: string, fileName: Option<string>, now: nat,
                        uploadOk: bool, publicUrl: string, answer: InsertAnswer): (r: UploadStep)
    ensures fileName.None? ==> r == UploadStep(None, None, s)
    ensures fileName.Some? ==> r.storageName == Some(StorageName(artisanId, now, fileName.value))
    ensures r.request.Some? <==> fileName.Some? && uploadOk
    ensures r.request.Some? ==>
              r.request.value == NewItem(artisanId, publicUrl, s.caption, |s.items|)
    ensures fileName.Some? && !uploadOk ==> r.state.items == s.items && r.state.error == UploadError
    ensures fileName.Some? && uploadOk && answer.InsertFailed? ==>
              r.state.items == s.items && r.state.error == SaveError
    ensures fileName.Some? && uploadOk && answer.Inserted? ==>
              r.state.items == s.items + [answer.row] && r.state.caption == "" && r.state.success == Uploaded
    ensures !(fileName.Some? && uploadOk && answer.Inserted?) ==> r.state.items == s.items
  {
    match fileName
    case None => UploadStep(None, None, s)
    case Some(name) =>
      var storageName := StorageName(artisanId, now, name);
      var cleared := s.(error := "");
      if !uploadOk then UploadStep(Some(storageName), None, cleared.(error := UploadError))
      else
        var request := NewItem(artisanId, publicUrl, s.caption, |s.items|);
        match answer
        case InsertFailed => UploadStep(Some(storageName), Some(request), cleared.(error := SaveError))
        case InsertedNothing => UploadStep(Some(storageName), Some(request), cleared)
        case Inserted(row) =>
          UploadStep(Some(storageName), Some(request),
                     cleared.(items := s.items + [row], caption := "", success := Uploaded))
  }

  /** The display orders run 0, 1, 2, ... along the list. */
  predicate OrdersArePositions(items: seq<Item>)
  {
    forall i :: 0 <= i < |items| ==> items[i].displayOrder == i
  }

  /** When the stored row carries the requested display order, appending
      keeps the display orders equal to the positions. */
  lemma UploadKeepsOrders(s: State, artisanId: string, fileName: Option<string>, now: nat,
                          uploadOk: bool, publicUrl: string, answer: InsertAnswer)
    requires OrdersArePositions(s.items)
    requires answer.Inserted? ==> answer.row.displayOrder == |s.items|
    ensures OrdersArePositions(HandleUpload(s, artisanId, fileName, now, uploadOk, publicUrl, answer).state.items)
  {
  }

  // -----------------------------------------------------------------------
  // delete

  /** The list without the items that have the id, the rest in order. */
  function RemoveById(items: seq<Item>, id: string): (r: seq<Item>)
    ensures forall i :: 0 <= i < |r| ==> r[i].id != id
    ensures forall i :: 0 <= i < |items| && items[i].id != id ==> items[i] in r
    ensures forall x :: x in r ==> x in items
    ensures IsSubsequence(r, items)
    ensures (forall i :: 0 <= i < |items| ==> items[i].id != id) ==> r == items
    decreases |items|
  {
    if |items| == 0 then []
    else
      var rest := RemoveById(items[1..], id);
      assert forall i :: 1 <= i < |items| ==> items[i] == items[1..][i - 1];
      if items[0].id == id then rest
      else
        assert ([items[0]] + rest)[1..] == rest;
        assert (forall i :: 0 <= i < |items| ==> items[i].id != id) ==> [items[0]] + rest == items by {
          if forall i :: 0 <= i < |items| ==> items[i].id != id {
            assert forall i :: 0 <= i < |items[1..]| ==> items[1..][i].id != id;
            assert [items[0]] + items[1..] == items;
          }
        }
        [items[0]] + rest
  }

  /** Removal works item by item: removing from a concatenation is removing
      from each part, so with the contract above the result is exactly the
      items with another id, duplicates included, in order. */
  lemma {:induction false} RemoveByIdAppend(a: seq<Item>, b: seq<Item>, id: string)
    ensures RemoveById(a + b, id) == RemoveById(a, id) + RemoveById(b, id)
    decreases |a|
  {
    if |a| == 0 {
      assert a + b == b;
    } else {
      assert (a + b)[0] == a[0];
      assert (a + b)[1..] == a[1..] + b;
      RemoveByIdAppend(a[1..], b, id);
    }
  }

  const GalleryMarker := "/gallery/"

  /** The storage path of a public URL: what follows "/gallery/" (up to a
      second "/gallery/", as `split` cuts there). */
  function StoragePath(imageUrl: string): (r: Option<string>)
    ensures r.None? <==> !Includes(imageUrl, GalleryMarker)
    ensures r.Some? ==> !Includes(r.value, GalleryMarker)
    ensures r.Some? ==>
              var i := IndexOf(imageUrl, GalleryMarker).value; var rest := imageUrl[i + |GalleryMarker|..];
              && IsPrefix(r.value, rest)
              && (|r.value| == |rest| || OccursAt(rest, GalleryMarker, |r.value|))
              && forall k :: 0 <= k < |r.value| ==> !OccursAt(rest, GalleryMarker, k)
  {
    SplitSecond(imageUrl, GalleryMarker)
  }

  /** The public URL of a stored photo is a base, "/gallery/" and the
      storage name; taking the path back out of it gives the storage name,
      provided "/gallery/" first occurs after the base and not again in the
      name. */
  lemma PathOfPublicUrl(base: string, name: string)
    requires forall j :: 0 <= j < |base| ==> !OccursAt(base + GalleryMarker + name, GalleryMarker, j)
    requires !Includes(name, GalleryMarker)
    ensures StoragePath(base + GalleryMarker + name) == Some(name)
  {
    var u := base + GalleryMarker + name;
    var m := |GalleryMarker|;
    assert u[|base|..|base| + m] == GalleryMarker;
    assert OccursAt(u, GalleryMarker, |base|);
    var k := IndexOf(u, GalleryMarker).value;
    assert k == |base|;
    assert u[k + m..] == name;
    var r := StoragePath(u).value;
    assert !OccursAt(name, GalleryMarker, |r|);
    assert r == name[..|r|] && |r| == |name|;
  }

  /** A marker that overlaps the end of the piece still cuts it there:
      `split` stops at the first later occurrence, whichever text follows. */
  lemma OverlappingMarkerCutsEarly()
    ensures StoragePath("u" + GalleryMarker + "a" + GalleryMarker + "gallery/b") == Some("a")
  {
    var rest := "a" + GalleryMarker + "gallery/b";
    var u := "u" + GalleryMarker + rest;
    assert u == "u" + GalleryMarker + "a" + GalleryMarker + "gallery/b";
    MarkerAfter("u", rest);
    MarkerAfter("a", "gallery/b");
    assert IndexOf(u, GalleryMarker) == Some(1);
    assert u[1 + |GalleryMarker|..] == rest;
    var r := StoragePath(u).value;
    assert |r| == 1;
    assert r == rest[..1] == "a";
  }

  /** A one-character prefix other than '/' puts the first marker right
      after it. */
  lemma MarkerAfter(x: string, y: string)
    requires |x| == 1 && x[0] != '/'
    ensures OccursAt(x + GalleryMarker + y, GalleryMarker, 1)
    ensures !OccursAt(x + GalleryMarker + y, GalleryMarker, 0)
  {
    var u := x + GalleryMarker + y;
    assert u[1..1 + |GalleryMarker|] == GalleryMarker;
    assert u[0] != GalleryMarker[0];
  }

  /** What deleting does: the storage path removed (if any) and the items. */
  datatype DeleteStep = DeleteStep(removedPath: Option<string>, items: seq<Item>)

  /** Deleting after the confirmation: the photo is removed from storage
      only when the URL yields a non-empty path, and the item leaves the
      list only when the database delete succeeds. */
  function DeleteItem(items: seq<Item>, itemId: string, imageUrl: string, confirmed: bool, deleteOk: bool): (r: DeleteStep)
    ensures !confirmed ==> r == DeleteStep(None, items)
    ensures confirmed ==> (r.removedPath.Some? <==> Truthy(StoragePath(imageUrl)))
    ensures r.removedPath.Some? ==> r.removedPath == StoragePath(imageUrl)
    ensures confirmed && deleteOk ==> r.items == RemoveById(items, itemId)
    ensures !deleteOk ==> r.items == items
  {
    if !confirmed then DeleteStep(None, items)
    else
      var path := StoragePath(imageUrl);
      DeleteStep(if Truthy(path) then path else None,
                 if deleteOk then RemoveById(items, itemId) else items)
  }

  /** Deleting and then uploading can repeat a display order: the new row
      takes the item count, which after a deletion can equal the order of
      an item still in the list. */
  lemma DeleteThenUploadRepeatsOrder()
    ensures var items := [Item("a", "u/gallery/a", "", 0), Item("b", "u/gallery/b", "", 1)];
            var after := DeleteItem(items, "a", "u/gallery/a", true, true).items;
            var step := HandleUpload(State(after, "", "", ""), "artisan", Some("c.png"), 7, true, "u/gallery/c", InsertedNothing);
            after == [Item("b", "u/gallery/b", "", 1)] && step.request.value.displayOrder == 1
  {
    var items := [Item("a", "u/gallery/a", "", 0), Item("b", "u/gallery/b", "", 1)];
    assert RemoveById(items[1..], "a") == items[1..];
  }
}

=== FILE: image_verification.dfy ===
/** The "traffic light" checks a photo goes through before it is uploaded:
    a quality verdict from the file size and the decoded dimensions, a
    metadata verdict from the file's last-modified timestamp, and the
    content-safety verdict (which always passes). Decoding the image and
    reading the clock are not modelled: the decode outcome and `now` are
    parameters. */
module ImageVerification {
  import opened Common

  datatype Status = Success | Warning | Error

  /** What a check reports: a status, a headline and optional details. */
  datatype CheckResult = CheckResult(status: Status, message: string, details: Option<string>)

  /** What the browser makes of the file's bytes: either it cannot read them
      as an image, or it reports the natural width and height. */
  datatype Decode = Undecodable | Decoded(width: nat, height: nat)

  const MaxSize: nat := 5 * 1024 * 1024
  const MinSize: nat := 50 * 1024
  const MinSide: nat := 800

  const DayMs: int := 24 * 60 * 60 * 1000
  const OneYearMs: int := 365 * DayMs
  const TwentyYearsMs: int := 20 * 365 * DayMs

  const TooLarge := CheckResult(Error, "File is too large", Some("Please upload a photo under 5MB."))
  const MightBeBlurry := CheckResult(Warning, "Photo might be blurry",
    Some("This image looks very small. Buyers prefer clear, high-quality photos."))
  const LowResolution := CheckResult(Warning, "Low Resolution",
    Some("This photo might look blurry on large screens. Try to use a photo at least 800 pixels wide."))
  const GoodQuality := CheckResult(Success, "Good Quality!", Some("This photo looks sharp and clear."))
  const InvalidImage := CheckResult(Error, "Invalid Image", Some("We clearly could not read this image file."))

  /** The quality check: the size bounds are compared first, and only a file
      within them is decoded. */
  function VerifyImageQuality(size: nat, decode: Decode): (r: CheckResult)
    ensures size > MaxSize ==> r == TooLarge
    ensures size <= MaxSize && size < MinSize ==> r == MightBeBlurry
    ensures MinSize <= size <= MaxSize && decode.Undecodable? ==> r == InvalidImage
    ensures MinSize <= size <= MaxSize && decode.Decoded? ==>
              (r == LowResolution <==> decode.width < MinSide || decode.height < MinSide)
    ensures MinSize <= size <= MaxSize && decode.Decoded? ==>
              (r == GoodQuality <==> decode.width >= MinSide && decode.height >= MinSide)
    ensures r.status == Error <==> size > MaxSize || (MinSize <= size && decode.Undecodable?)
    ensures r.status == Success <==>
              MinSize <= size <= MaxSize && decode.Decoded? &&
              decode.width >= MinSide && decode.height >= MinSide
    ensures Truthy(r.details)
  {
    if size > MaxSize then TooLarge
    else if size < MinSize then MightBeBlurry
    else match decode
      case Undecodable => InvalidImage
      case Decoded(w, h) => if w < MinSide || h < MinSide then LowResolution else GoodQuality
  }

  /** Whatever the dimensions, an oversized file is refused, and a file of
      exactly the maximum size is not. */
  lemma SizeBoundary(d1: Decode, d2: Decode)
    ensures VerifyImageQuality(MaxSize + 1, d1) == VerifyImageQuality(MaxSize + 1, d2) == TooLarge
    ensures VerifyImageQuality(MaxSize, d1).message != "File is too large"
  {
  }

  /** A small file gets its warning without its dimensions being consulted. */
  lemma SmallFileIgnoresDimensions(size: nat, d1: Decode, d2: Decode)
    requires size < MinSize
    ensures VerifyImageQuality(size, d1) == VerifyImageQuality(size, d2)
  {
  }

  /** The metadata check: a timestamp more than twenty 365-day years old
      (strictly) is flagged; the one-year bound the source computes plays no
      part in the verdict. */
  function CheckRecentWork(lastModified: int, now: int): (r: CheckResult)
    ensures r.status == Warning <==> lastModified < now - TwentyYearsMs
    ensures r.status != Error
    ensures r.status == Warning ==> r.message == "Metadata Missing"
    ensures r.status == Success ==> r.message == "Verified Recent"
  {
    if lastModified < now - TwentyYearsMs then
      CheckResult(Warning, "Metadata Missing", Some("We couldn't verify when this photo was taken."))
    else
      CheckResult(Success, "Verified Recent", Some("Timestamp looks good."))
  }

  /** A photo between one and twenty years old passes the metadata check:
      being older than a year is not flagged. */
  lemma OldButNotAncientPasses(lastModified: int, now: int)
    requires now - TwentyYearsMs <= lastModified < now - OneYearMs
    ensures CheckRecentWork(lastModified, now).status == Success
  {
  }

  /** The content-safety verdict (a mock that always passes). */
  function ContentSafety(): (r: CheckResult)
    ensures r.status == Success && r.message == "Safe Content"
  {
    CheckResult(Success, "Safe Content", Some("Image meets safety guidelines."))
  }
}

=== FILE: inbox.dfy ===
/** The messages inbox: marking a message read, opening a message, and the
    unread badge count. The database update `markAsRead` sends first is not
    inspected by the component, so the local list is updated whatever it
    answers; it is not modelled. */
module Inbox {
  import opened Common

  datatype Sender = Sender(fullName: string, avatarUrl: string)

  datatype Message = Message(
    id: string, subject: string, content: string, isRead: bool,
    createdAt: string, sender: Sender)

  /** Every message with the id is marked read; every other message is left
      as it is, in place. */
  function MarkAsRead(messages: seq<Message>, id: string): (r: seq<Message>)
    ensures |r| == |messages|
    ensures forall i :: 0 <= i < |messages| && messages[i].id == id ==> r[i] == messages[i].(isRead := true)
    ensures forall i :: 0 <= i < |messages| && messages[i].id != id ==> r[i] == messages[i]
  {
    seq(|messages|, i requires 0 <= i < |messages| =>
      if messages[i].id == id then messages[i].(isRead := true) else messages[i])
  }

  /** The number of unread messages, counted from the end of the list. */
  function UnreadCount(messages: seq<Message>): (n: nat)
    ensures n <= |messages|
  {
    if |messages| == 0 then 0
    else UnreadCount(messages[..|messages| - 1]) + (if messages[|messages| - 1].isRead then 0 else 1)
  }

  /** The positions of the unread messages. */
  function UnreadPositions(messages: seq<Message>): set<nat>
  {
    set i: nat | i < |messages| && !messages[i].isRead
  }

  /** The badge counts exactly the unread positions. */
  lemma {:induction false} UnreadCountIsUnreadPositions(messages: seq<Message>)
    ensures UnreadCount(messages) == |UnreadPositions(messages)|
    decreases |messages|
  {
    if |messages| > 0 {
      var n := |messages| - 1;
      var prefix := messages[..n];
      UnreadCountIsUnreadPositions(prefix);
      assert UnreadPositions(prefix) == set i: nat | i < n && !messages[i].isRead;
      if messages[n].isRead {
        assert UnreadPositions(messages) == UnreadPositions(prefix);
      } else {
        assert UnreadPositions(messages) == UnreadPositions(prefix) + {n};
      }
    }
  }

  /** Marking twice is marking once. */
  lemma MarkAsReadIdempotent(messages: seq<Message>, id: string)
    ensures MarkAsRead(MarkAsRead(messages, id), id) == MarkAsRead(messages, id)
  {
  }

  /** Marking never raises the unread count. */
  lemma {:induction false} MarkAsReadNeverIncreases(messages: seq<Message>, id: string)
    ensures UnreadCount(MarkAsRead(messages, id)) <= UnreadCount(messages)
    decreases |messages|
  {
    if |messages| > 0 {
      var n := |messages| - 1;
      MarkAsReadPrefix(messages, id);
      MarkAsReadNeverIncreases(messages[..n], id);
    }
  }

  lemma MarkAsReadPrefix(messages: seq<Message>, id: string)
    requires |messages| > 0
    ensures var n := |messages| - 1; MarkAsRead(messages, id)[..n] == MarkAsRead(messages[..n], id)
  {
  }

  /** Marking an unread message whose id no other message shares lowers the
      count by exactly one. */
  lemma {:induction false} MarkUniqueUnreadDecrements(messages: seq<Message>, k: nat)
    requires k < |messages| && !messages[k].isRead
    requires forall j :: 0 <= j < |messages| && j != k ==> messages[j].id != messages[k].id
    ensures UnreadCount(MarkAsRead(messages, messages[k].id)) == UnreadCount(messages) - 1
    decreases |messages|
  {
    var id := messages[k].id;
    var n := |messages| - 1;
    MarkAsReadPrefix(messages, id);
    if k == n {
      MarkAbsentUnchanged(messages[..n], id);
    } else {
      MarkUniqueUnreadDecrements(messages[..n], k);
    }
  }

  /** Marking an id that no message has changes nothing. */
  lemma MarkAbsentUnchanged(messages: seq<Message>, id: string)
    requires forall j :: 0 <= j < |messages| ==> messages[j].id != id
    ensures MarkAsRead(messages, id) == messages
  {
  }

  /** Opening a message always shows it, and marks it read only when it was
      unread. */
  function OpenMessage(messages: seq<Message>, m: Message): (r: (Message, seq<Message>))
    ensures r.0 == m
    ensures m.isRead ==> r.1 == messages
    ensures !m.isRead ==> r.1 == MarkAsRead(messages, m.id)
  {
    (m, if m.isRead then messages else MarkAsRead(messages, m.id))
  }

  /** Opening a message never raises the unread count. */
  lemma OpenNeverIncreases(messages: seq<Message>, m: Message)
    ensures UnreadCount(OpenMessage(messages, m).1) <= UnreadCount(messages)
  {
    MarkAsReadNeverIncreases(messages, m.id);
  }
}

=== FILE: language.dfy ===
/** The language context: the current language (one of English, Hindi and
    Kannada), restoring a stored choice, changing it, and `t`, the lookup of
    a dotted key in the nested translation table of the current language.
    The table itself is a parameter; browser storage is the stored string. */
module Language {
  import opened Common
  import opened Strings

  datatype Lang = En | Hi | Kn

  function Code(l: Lang): string
  {
    match l
    case En => "en"
    case Hi => "hi"
    case Kn => "kn"
  }

  /** The language a code names, if it is one of the three. */
  function FromCode(s: string): (r: Option<Lang>)
    ensures r.Some? ==> Code(r.value) == s
    ensures r.None? <==> s != "en" && s != "hi" && s != "kn"
  {
    if s == "en" then Some(En) else if s == "hi" then Some(Hi) else if s == "kn" then Some(Kn) else None
  }

  /** A translation table: text at the leaves, nested sections inside. */
  datatype Node = Leaf(text: string) | Section(children: map<string, Node>)

  /** JavaScript truthiness of a table value: only the empty text is falsy. */
  predicate TruthyNode(n: Node)
  {
    !(n.Leaf? && n.text == "")
  }

  /** The value reached by following `segments` from `n`, one at a time;
      a missing or falsy value on the way stops the walk. */
  function Walk(n: Node, segments: seq<string>): (r: Option<Node>)
    ensures r.Some? && |segments| > 0 ==> TruthyNode(r.value)
    decreases |segments|
  {
    if |segments| == 0 then Some(n)
    else if n.Section? && segments[0] in n.children && TruthyNode(n.children[segments[0]]) then
      Walk(n.children[segments[0]], segments[1..])
    else None
  }

  /** Walking a concatenation of paths is walking the first, then the
      second from where the first ended. */
  lemma {:induction false} WalkAppend(n: Node, a: seq<string>, b: seq<string>)
    ensures Walk(n, a + b) == match Walk(n, a) case None => None case Some(m) => Walk(m, b)
    decreases |a|
  {
    if |a| == 0 {
      assert a + b == b;
    } else {
      assert (a + b)[0] == a[0];
      assert (a + b)[1..] == a[1..] + b;
      if n.Section? && a[0] in n.children && TruthyNode(n.children[a[0]]) {
        WalkAppend(n.children[a[0]], a[1..], b);
      }
    }
  }

  /** `t(key)`: the value at the dotted key in the current language's
      table, or the key itself when any segment is missing or falsy (or the
      language has no table). A key reaching a section yields the section. */
  function Translate(table: map<Lang, Node>, lang: Lang, key: string): (r: Node)
    ensures lang !in table ==> r == Leaf(key)
    ensures lang in table && Walk(table[lang], Split(key, '.')).None? ==> r == Leaf(key)
    ensures lang in table && Walk(table[lang], Split(key, '.')).Some? ==> r == Walk(table[lang], Split(key, '.')).value
    ensures r == Leaf(key) || TruthyNode(r)
  {
    if lang !in table then Leaf(key)
    else match Walk(table[lang], Split(key, '.'))
      case None => Leaf(key)
      case Some(v) => v
  }

  /** A dotted key "a.b" is looked up by looking up "a" and then "b" within
      the result: the lookup follows the sections one segment at a time. */
  lemma DottedKeyNests(table: map<Lang, Node>, lang: Lang, a: string, b: string)
    requires lang in table
    ensures Walk(table[lang], Split(a + "." + b, '.')) ==
            match Walk(table[lang], Split(a, '.')) case None => None case Some(m) => Walk(m, Split(b, '.'))
  {
    assert a + "." + b == a + ['.'] + b;
    SplitConcat(a, '.', b);
    WalkAppend(table[lang], Split(a, '.'), Split(b, '.'));
  }

  /** A single-segment key names a direct entry: it is found exactly when the
      entry exists and is not the empty text. */
  lemma SingleSegment(table: map<Lang, Node>, lang: Lang, key: string)
    requires lang in table && table[lang].Section? && '.' !in key
    ensures var children := table[lang].children;
            Translate(table, lang, key) ==
              if key in children && TruthyNode(children[key]) then children[key] else Leaf(key)
  {
    SplitNoSep(key, '.');
    var n := table[lang];
    assert [key][0] == key && [key][1..] == [];
    if key in n.children && TruthyNode(n.children[key]) {
      assert Walk(n, [key]) == Walk(n.children[key], []);
    } else {
      assert Walk(n, [key]) == None;
    }
  }

  /** Restoring the stored choice at start-up: a stored code of one of the
      three languages replaces the current one; anything else, or nothing,
      keeps it. */
  function Restore(current: Lang, stored: Option<string>): (r: Lang)
    ensures stored.Some? && FromCode(stored.value).Some? ==> r == FromCode(stored.value).value
    ensures stored.None? || FromCode(stored.value).None? ==> r == current
  {
    if stored.Some? && stored.value != "" then
      match FromCode(stored.value)
      case Some(l) => l
      case None => current
    else current
  }

  /** Choosing a language: it becomes current and its code is stored. */
  datatype Choice = Choice(current: Lang, stored: string)

  function SetLanguage(l: Lang): (r: Choice)
    ensures r.current == l
    ensures FromCode(r.stored) == Some(l)
  {
    Choice(l, Code(l))
  }

  /** A chosen language survives a reload: restoring from what was stored
      gives it back, starting from the default English. */
  lemma ChoiceSurvivesReload(l: Lang)
    ensures Restore(En, Some(SetLanguage(l).stored)) == l
  {
  }
}

=== FILE: lightbox.dfy ===
/** The behind-the-scenes gallery lightbox: the keyboard handler that moves
    the open photo left and right or closes it, the visibility of the
    previous/next buttons, and the rule that an empty gallery renders
    nothing. The open photo is found in the gallery by id, taking the first
    match, as `findIndex` does. */
module Lightbox {
  import opened Common

  datatype Item = Item(id: string, imageUrl: string, caption: string, createdAt: string)

  datatype Key = Escape | ArrowLeft | ArrowRight | OtherKey

  /** JavaScript `findIndex` by id: the first position holding `id`, or -1. */
  function FindIndex(gallery: seq<Item>, id: string): (r: int)
    ensures -1 <= r < |gallery|
    ensures r == -1 <==> forall i :: 0 <= i < |gallery| ==> gallery[i].id != id
    ensures r >= 0 ==> gallery[r].id == id && forall j :: 0 <= j < r ==> gallery[j].id != id
    decreases |gallery|
  {
    if |gallery| == 0 then -1
    else if gallery[0].id == id then 0
    else
      var k := FindIndex(gallery[1..], id);
      assert forall i :: 1 <= i < |gallery| ==> gallery[i] == gallery[1..][i - 1];
      if k == -1 then -1 else k + 1
  }

  /** The keyboard handler. */
  function HandleKeyDown(gallery: seq<Item>, selected: Option<Item>, key: Key): (r: Option<Item>)
    ensures key == Escape ==> r.None?
    ensures selected.None? ==> r.None?
    ensures key == OtherKey ==> r == selected
    ensures selected.Some? && key == ArrowLeft ==>
              var i := FindIndex(gallery, selected.value.id);
              r == if i > 0 then Some(gallery[i - 1]) else selected
    ensures selected.Some? && key == ArrowRight ==>
              var i := FindIndex(gallery, selected.value.id);
              r == if i < |gallery| - 1 then Some(gallery[i + 1]) else selected
  {
    if key == Escape then None
    else if selected.None? then selected
    else
      var i := FindIndex(gallery, selected.value.id);
      if key == ArrowLeft && i > 0 then Some(gallery[i - 1])
      else if key == ArrowRight && i < |gallery| - 1 then Some(gallery[i + 1])
      else selected
  }

  /** The previous button is shown when the open photo is not the first. */
  function PrevVisible(gallery: seq<Item>, selected: Item): (r: bool)
    ensures r <==> exists i :: 0 < i < |gallery| && gallery[i].id == selected.id &&
                              forall j :: 0 <= j < i ==> gallery[j].id != selected.id
  {
    FindIndex(gallery, selected.id) > 0
  }

  /** The next button is shown when the open photo is not the last. */
  function NextVisible(gallery: seq<Item>, selected: Item): (r: bool)
    ensures r <==> || (|gallery| > 0 && forall i :: 0 <= i < |gallery| ==> gallery[i].id != selected.id)
                   || exists i :: 0 <= i < |gallery| - 1 && gallery[i].id == selected.id &&
                                  forall j :: 0 <= j < i ==> gallery[j].id != selected.id
  {
    FindIndex(gallery, selected.id) < |gallery| - 1
  }

  /** The component renders only for a non-empty gallery. */
  predicate Renders(gallery: seq<Item>)
  {
    |gallery| != 0
  }

  /** With an empty gallery nothing is rendered, and there is nothing to
      move to either: neither button is shown and no key selects an item
      other than the current one. */
  lemma EmptyGalleryIsInert(gallery: seq<Item>, selected: Option<Item>, key: Key)
    requires !Renders(gallery)
    ensures gallery == []
    ensures selected.Some? ==> !PrevVisible(gallery, selected.value) && !NextVisible(gallery, selected.value)
    ensures var r := HandleKeyDown(gallery, selected, key); r.None? || r == selected
  {
  }

  /** Clicking the previous button, which exists only when it is visible. */
  function ClickPrev(gallery: seq<Item>, selected: Item): (r: Item)
    requires PrevVisible(gallery, selected)
    ensures Some(r) == HandleKeyDown(gallery, Some(selected), ArrowLeft)
    ensures r in gallery
  {
    gallery[FindIndex(gallery, selected.id) - 1]
  }

  /** Clicking the next button, which exists only when it is visible. */
  function ClickNext(gallery: seq<Item>, selected: Item): (r: Item)
    requires NextVisible(gallery, selected)
    ensures Some(r) == HandleKeyDown(gallery, Some(selected), ArrowRight)
    ensures r in gallery
  {
    gallery[FindIndex(gallery, selected.id) + 1]
  }

  /** At the ends of the gallery the arrow towards the end does nothing, and
      the corresponding button is hidden. */
  lemma EndsAreFixed(gallery: seq<Item>, selected: Item)
    ensures FindIndex(gallery, selected.id) == 0 ==>
              HandleKeyDown(gallery, Some(selected), ArrowLeft) == Some(selected) && !PrevVisible(gallery, selected)
    ensures FindIndex(gallery, selected.id) == |gallery| - 1 ==>
              HandleKeyDown(gallery, Some(selected), ArrowRight) == Some(selected) && !NextVisible(gallery, selected)
  {
  }

  /** A photo of the gallery stays a photo of the gallery (or the lightbox
      closes) whatever key is pressed. */
  lemma StaysInGallery(gallery: seq<Item>, selected: Item, key: Key)
    requires selected in gallery
    ensures var r := HandleKeyDown(gallery, Some(selected), key); r.None? || r.value in gallery
  {
  }

  /** A photo that is no longer in the gallery (its id is not found) makes
      ArrowRight jump to the first photo, since -1 is below the last index. */
  lemma UnknownSelectionJumpsToFirst(gallery: seq<Item>, selected: Item)
    requires |gallery| > 0
    requires forall i :: 0 <= i < |gallery| ==> gallery[i].id != selected.id
    ensures HandleKeyDown(gallery, Some(selected), ArrowRight) == Some(gallery[0])
    ensures !PrevVisible(gallery, selected) && NextVisible(gallery, selected)
  {
  }

  predicate UniqueIds(gallery: seq<Item>)
  {
    forall i, j :: 0 <= i < j < |gallery| ==> gallery[i].id != gallery[j].id
  }

  function PressRight(gallery: seq<Item>, selected: Option<Item>, n: nat): Option<Item>
    decreases n
  {
    if n == 0 then selected else PressRight(gallery, HandleKeyDown(gallery, selected, ArrowRight), n - 1)
  }

  function Min(a: int, b: int): int
  {
    if a <= b then a else b
  }

  /** With distinct ids, pressing ArrowRight n times from photo i opens photo
      min(i + n, last): the lightbox walks forward and stops at the end. */
  lemma {:induction false} PressRightWalks(gallery: seq<Item>, i: nat, n: nat)
    requires UniqueIds(gallery)
    requires i < |gallery|
    ensures PressRight(gallery, Some(gallery[i]), n) == Some(gallery[Min(i + n, |gallery| - 1)])
    decreases n
  {
    if n > 0 {
      assert FindIndex(gallery, gallery[i].id) == i;
      var next := if i < |gallery| - 1 then i + 1 else i;
      assert HandleKeyDown(gallery, Some(gallery[i]), ArrowRight) == Some(gallery[next]);
      PressRightWalks(gallery, next, n - 1);
    }
  }
}

=== FILE: marketplace.dfy ===
/** The shop listing: a category filter and a case-insensitive search over
    product titles and artisan names, and the stock badge on each card.
    Lower-casing is modelled on ASCII letters only. */
module Marketplace {
  import opened Common
  import opened Strings

  datatype Profile = Profile(fullName: string, craft: string)

  datatype Product = Product(
    id: string, title: string, price: real, category: string,
    inventoryCount: int, artisanId: string, profile: Option<Profile>)

  const AllCategories := "All"

  /** The search matches the title or, when the product has an artisan
      profile, the artisan's full name, both compared lower-cased. */
  function MatchesSearch(p: Product, query: string): (r: bool)
    ensures query == "" ==> r
    ensures Includes(Lower(p.title), Lower(query)) ==> r
    ensures p.profile.Some? && Includes(Lower(p.profile.value.fullName), Lower(query)) ==> r
    ensures r ==> Includes(Lower(p.title), Lower(query)) ||
                  (p.profile.Some? && Includes(Lower(p.profile.value.fullName), Lower(query)))
    ensures p.profile.None? ==> (r <==> Includes(Lower(p.title), Lower(query)))
  {
    assert query == "" ==> OccursAt(Lower(p.title), Lower(query), 0);
    || Includes(Lower(p.title), Lower(query))
    || (p.profile.Some? && Includes(Lower(p.profile.value.fullName), Lower(query)))
  }

  /** "All" lets every product through; any other category only its own. */
  function MatchesCategory(p: Product, category: string): (r: bool)
    ensures category == AllCategories ==> r
    ensures category != AllCategories ==> (r <==> p.category == category)
  {
    category == AllCategories || p.category == category
  }

  predicate Shown(p: Product, query: string, category: string)
  {
    MatchesSearch(p, query) && MatchesCategory(p, category)
  }

  /** The products on the page, in listing order. */
  function FilterProducts(products: seq<Product>, query: string, category: string): (r: seq<Product>)
    ensures forall i :: 0 <= i < |r| ==> Shown(r[i], query, category)
    ensures forall i :: 0 <= i < |products| && Shown(products[i], query, category) ==> products[i] in r
    ensures forall x :: x in r ==> x in products
    ensures IsSubsequence(r, products)
    ensures |r| <= |products|
    decreases |products|
  {
    if |products| == 0 then []
    else
      var rest := FilterProducts(products[1..], query, category);
      assert forall i :: 1 <= i < |products| ==> products[i] == products[1..][i - 1];
      if Shown(products[0], query, category) then
        assert ([products[0]] + rest)[1..] == rest;
        [products[0]] + rest
      else rest
  }

  /** Filtering works product by product: the listing of a concatenation is
      the listing of each part, so with the contract above the result keeps
      every shown product, duplicates included, in order. */
  lemma {:induction false} FilterAppend(a: seq<Product>, b: seq<Product>, query: string, category: string)
    ensures FilterProducts(a + b, query, category) == FilterProducts(a, query, category) + FilterProducts(b, query, category)
    decreases |a|
  {
    if |a| == 0 {
      assert a + b == b;
    } else {
      assert (a + b)[0] == a[0];
      assert (a + b)[1..] == a[1..] + b;
      FilterAppend(a[1..], b, query, category);
    }
  }

  /** The empty search matches every product: everything `includes` "". */
  lemma EmptyQueryMatches(p: Product)
    ensures MatchesSearch(p, "")
  {
    assert OccursAt(Lower(p.title), Lower(""), 0);
  }

  /** With no search text and the "All" category, the whole listing is
      shown as it is. */
  lemma {:induction false} NoFilterShowsAll(products: seq<Product>)
    ensures FilterProducts(products, "", AllCategories) == products
    decreases |products|
  {
    if |products| > 0 {
      EmptyQueryMatches(products[0]);
      NoFilterShowsAll(products[1..]);
      assert [products[0]] + products[1..] == products;
    }
  }

  /** Applying the same filter to its own output changes nothing. */
  lemma {:induction false} FilterIdempotent(products: seq<Product>, query: string, category: string)
    ensures FilterProducts(FilterProducts(products, query, category), query, category)
            == FilterProducts(products, query, category)
    decreases |products|
  {
    if |products| > 0 {
      FilterIdempotent(products[1..], query, category);
      var rest := FilterProducts(products[1..], query, category);
      if Shown(products[0], query, category) {
        assert ([products[0]] + rest)[1..] == rest;
      }
    }
  }

  /** The stock badge reads in-stock exactly for a positive inventory. */
  function StockBadge(p: Product): (key: string)
    ensures key == "shop.inStock" <==> p.inventoryCount > 0
    ensures key == "shop.soldOut" <==> p.inventoryCount <= 0
  {
    if p.inventoryCount > 0 then "shop.inStock" else "shop.soldOut"
  }
}

=== FILE: reviews.dfy ===
/** Customer reviews of an artisan: submitting a review (the answer of the
    insert decides the message and the list), the average rating, and the
    star display. The insert is an input. The average is an exact rational;
    its one-decimal rendering is not modelled. */
module Reviews {

  datatype Reviewer = Reviewer(fullName: string, avatarUrl: string)

  datatype Review = Review(id: string, rating: int, comment: string, createdAt: string, reviewer: Reviewer)

  datatype State = State(
    reviews: seq<Review>, rating: int, comment: string, showForm: bool,
    error: string, success: string)

  /** What the insert answers: an error with its code, no row, or the
      stored review. */
  datatype Answer = InsertError(code: string) | InsertedNothing | Inserted(review: Review)

  const UniqueViolation := "23505"
  const AlreadyReviewed := "You have already reviewed this artisan."
  const SubmitFailed := "Failed to submit review. Please try again."
  const Submitted := "Review submitted successfully!"
  const DefaultRating := 5

  /** The row sent to the database (rating and comment). */
  datatype Request = Request(rating: int, comment: string)

  datatype SubmitStep = SubmitStep(request: Request, state: State) | NotSignedIn

  /** Submitting the form. Without a user nothing happens. A duplicate
      review (code 23505) and any other error each set their message; on an
      error or an empty answer the success message is cleared and everything
      else is kept, so the form can be submitted again; a stored review goes
      to the front of the list and the form is reset and closed. */
  function HandleSubmit(s: State, signedIn: bool, answer: Answer): (r: SubmitStep)
    ensures !signedIn <==> r.NotSignedIn?
    ensures r.SubmitStep? ==> r.request == Request(s.rating, s.comment)
    ensures r.SubmitStep? && answer.InsertError? ==>
              r.state.reviews == s.reviews &&
              r.state.error == (if answer.code == UniqueViolation then AlreadyReviewed else SubmitFailed)
    ensures r.SubmitStep? && answer.Inserted? ==>
              r.state.reviews == [answer.review] + s.reviews && r.state.comment == "" &&
              r.state.rating == DefaultRating && !r.state.showForm && r.state.success == Submitted &&
              r.state.error == ""
    ensures r.SubmitStep? && answer.InsertedNothing? ==> r.state.reviews == s.reviews
    ensures r.SubmitStep? && !answer.Inserted? ==> r.state == s.(error := r.state.error, success := "")
    ensures r.SubmitStep? && answer.InsertedNothing? ==> r.state.error == ""
  {
    if !signedIn then NotSignedIn
    else
      var cleared := s.(error := "", success := "");
      var next := match answer
        case InsertError(code) =>
          cleared.(error := if code == UniqueViolation then AlreadyReviewed else SubmitFailed)
        case InsertedNothing => cleared
        case Inserted(review) =>
          cleared.(reviews := [review] + s.reviews, comment := "", rating := DefaultRating,
                   showForm := false, success := Submitted);
      SubmitStep(Request(s.rating, s.comment), next)
  }

  function SumRatings(reviews: seq<Review>): int
  {
    if |reviews| == 0 then 0 else reviews[0].rating + SumRatings(reviews[1..])
  }

  /** The average rating, 0 when there are no reviews: the number that,
      times the number of reviews, gives the sum of the ratings. */
  function AverageRating(reviews: seq<Review>): (avg: real)
    ensures |reviews| == 0 ==> avg == 0.0
    ensures |reviews| > 0 ==> avg * |reviews| as real == SumRatings(reviews) as real
  {
    if |reviews| == 0 then 0.0 else SumRatings(reviews) as real / |reviews| as real
  }

  predicate RatingsInRange(reviews: seq<Review>)
  {
    forall i :: 0 <= i < |reviews| ==> 1 <= reviews[i].rating <= 5
  }

  lemma {:induction false} SumRatingsBounds(reviews: seq<Review>)
    requires RatingsInRange(reviews)
    ensures |reviews| <= SumRatings(reviews) <= 5 * |reviews|
    decreases |reviews|
  {
    if |reviews| > 0 {
      assert RatingsInRange(reviews[1..]) by {
        assert forall i :: 0 <= i < |reviews[1..]| ==> reviews[1..][i] == reviews[i + 1];
      }
      SumRatingsBounds(reviews[1..]);
    }
  }

  /** With every rating between 1 and 5, a non-empty average lies between
      1 and 5 too. */
  lemma AverageInRange(reviews: seq<Review>)
    requires |reviews| > 0 && RatingsInRange(reviews)
    ensures 1.0 <= AverageRating(reviews) <= 5.0
  {
    SumRatingsBounds(reviews);
    QuotientBounds(SumRatings(reviews) as real, |reviews| as real);
  }

  lemma QuotientBounds(s: real, n: real)
    requires 0.0 < n && n <= s <= 5.0 * n
    ensures 1.0 <= s / n <= 5.0
  {
    var q := s / n;
    assert q * n == s;
    assert (q - 1.0) * n == s - n;
    assert (5.0 - q) * n == 5.0 * n - s;
    NonNegativeFactor(q - 1.0, n);
    NonNegativeFactor(5.0 - q, n);
  }

  lemma NonNegativeFactor(x: real, n: real)
    requires 0.0 < n && x * n >= 0.0
    ensures x >= 0.0
  {
  }

  /** Prepending a review moves the sum by exactly its rating. */
  lemma PrependSum(review: Review, reviews: seq<Review>)
    ensures SumRatings([review] + reviews) == review.rating + SumRatings(reviews)
  {
    assert ([review] + reviews)[1..] == reviews;
  }

  /** The five stars of a rating: star k (1 to 5, at position k - 1) is
      filled when k is at most the rating. */
  function Stars(rating: int): (stars: seq<bool>)
    ensures |stars| == 5
    ensures forall i :: 0 <= i < 5 ==> (stars[i] <==> i + 1 <= rating)
  {
    seq(5, i requires 0 <= i < 5 => i + 1 <= rating)
  }

  function CountFilled(stars: seq<bool>): nat
  {
    if |stars| == 0 then 0 else (if stars[0] then 1 else 0) + CountFilled(stars[1..])
  }

  /** The number of filled stars is the rating cut to the range 0..5. */
  lemma FilledStars(rating: int)
    ensures CountFilled(Stars(rating)) == if rating < 0 then 0 else if rating > 5 then 5 else rating
  {
    var st := Stars(rating);
    assert st == [1 <= rating, 2 <= rating, 3 <= rating, 4 <= rating, 5 <= rating];
    assert st[1..] == [2 <= rating, 3 <= rating, 4 <= rating, 5 <= rating];
    assert st[1..][1..] == [3 <= rating, 4 <= rating, 5 <= rating];
    assert st[1..][1..][1..] == [4 <= rating, 5 <= rating];
    assert st[1..][1..][1..][1..] == [5 <= rating];
    assert st[1..][1..][1..][1..][1..] == [];
    var b := (k: int) => if k <= rating then 1 else 0;
    assert CountFilled(st[1..][1..][1..][1..]) == b(5);
    assert CountFilled(st[1..][1..][1..]) == b(4) + b(5);
    assert CountFilled(st[1..][1..]) == b(3) + b(4) + b(5);
    assert CountFilled(st[1..]) == b(2) + b(3) + b(4) + b(5);
    assert CountFilled(st) == b(1) + b(2) + b(3) + b(4) + b(5);
  }
}

=== FILE: strings.dfy ===
/** String operations the components rely on, stated over `seq<char>`:
    `split` on a one-character separator and its inverse `join`, `split` on a
    multi-character separator (only the element at index 1 is ever used),
    `includes`, ASCII lower-casing, and the decimal rendering of a
    non-negative integer (what a template literal does with `Date.now()`). */
module Strings {
  import opened Common

  // ---------------------------------------------------------------------
  // split / join on a single character

  /** `parts` joined with `sep` between consecutive parts. */
  function Join(parts: seq<string>, sep: char): string
  {
    if |parts| == 0 then ""
    else if |parts| == 1 then parts[0]
    else parts[0] + [sep] + Join(parts[1..], sep)
  }

  /** JavaScript `s.split(sep)` for a one-character separator: the maximal
      runs between separators, including empty runs at either end. */
  function Split(s: string, sep: char): (parts: seq<string>)
    ensures |parts| >= 1
    ensures forall i :: 0 <= i < |parts| ==> sep !in parts[i]
    ensures Join(parts, sep) == s
    decreases |s|
  {
    if |s| == 0 then [""]
    else
      var rest := Split(s[1..], sep);
      if s[0] == sep then [""] + rest
      else [[s[0]] + rest[0]] + rest[1..]
  }

  /** Splitting a join of separator-free parts gives the parts back: together
      with `Join(Split(s)) == s` this makes the two mutually inverse. */
  lemma {:induction false} SplitJoin(parts: seq<string>, sep: char)
    requires |parts| >= 1
    requires forall i :: 0 <= i < |parts| ==> sep !in parts[i]
    ensures Split(Join(parts, sep), sep) == parts
    decreases |parts|, |parts[0]|
  {
    if |parts| == 1 {
      SplitNoSep(parts[0], sep);
    } else if |parts[0]| == 0 {
      SplitJoin(parts[1..], sep);
      assert Join(parts, sep) == [sep] + Join(parts[1..], sep);
      assert ([sep] + Join(parts[1..], sep))[1..] == Join(parts[1..], sep);
    } else {
      var p0 := parts[0];
      var shorter := [p0[1..]] + parts[1..];
      assert shorter[1..] == parts[1..];
      assert forall i :: 0 <= i < |shorter| ==> sep !in shorter[i] by {
        forall i | 0 <= i < |shorter|
          ensures sep !in shorter[i]
        {
          if i == 0 {
            assert forall x :: x in p0[1..] ==> x in p0;
          } else {
            assert shorter[i] == parts[i];
          }
        }
      }
      SplitJoin(shorter, sep);
      var j := Join(parts, sep);
      assert j == p0 + [sep] + Join(parts[1..], sep);
      assert Join(shorter, sep) == p0[1..] + [sep] + Join(parts[1..], sep);
      assert j[0] == p0[0] && p0[0] != sep;
      assert j[1..] == Join(shorter, sep);
      assert [p0[0]] + p0[1..] == p0;
    }
  }

  lemma {:induction false} SplitNoSep(s: string, sep: char)
    requires sep !in s
    ensures Split(s, sep) == [s]
    decreases |s|
  {
    if |s| > 0 {
      assert forall x :: x in s[1..] ==> x in s;
      SplitNoSep(s[1..], sep);
      assert [s[0]] + s[1..] == s;
    }
  }

  /** Splitting at a separator splits each side independently. */
  lemma {:induction false} SplitConcat(a: string, sep: char, b: string)
    ensures Split(a + [sep] + b, sep) == Split(a, sep) + Split(b, sep)
    decreases |a|
  {
    if |a| == 0 {
      assert a + [sep] + b == [sep] + b;
      assert ([sep] + b)[1..] == b;
    } else {
      assert (a + [sep] + b)[1..] == a[1..] + [sep] + b;
      assert (a + [sep] + b)[0] == a[0];
      SplitConcat(a[1..], sep, b);
    }
  }

  /** JavaScript `s.split(sep).pop()`: the text after the last separator, or
      the whole string when there is none. Together the clauses say it is the
      longest suffix free of `sep`. */
  function LastSegment(s: string, sep: char): (r: string)
    ensures sep !in r
    ensures sep !in s ==> r == s
    ensures |r| <= |s| && r == s[|s| - |r|..]
    ensures |r| < |s| ==> s[|s| - |r| - 1] == sep
  {
    var parts := Split(s, sep);
    if sep !in s then SplitNoSep(s, sep); s
    else
      LastSegmentIsSuffix(parts, sep);
      parts[|parts| - 1]
  }

  /** The last part is a suffix of the joined string, preceded by a separator
      when there are several parts. */
  lemma {:induction false} LastSegmentIsSuffix(parts: seq<string>, sep: char)
    requires |parts| >= 1
    ensures var j := Join(parts, sep); var l := parts[|parts| - 1];
            |l| <= |j| && l == j[|j| - |l|..]
    ensures var j := Join(parts, sep); var l := parts[|parts| - 1];
            |parts| > 1 ==> |l| < |j| && j[|j| - |l| - 1] == sep
    ensures |parts| == 1 ==> Join(parts, sep) == parts[0]
    decreases |parts|
  {
    if |parts| > 1 {
      LastSegmentIsSuffix(parts[1..], sep);
      var j := Join(parts, sep);
      var t := Join(parts[1..], sep);
      assert j == (parts[0] + [sep]) + t;
      assert j[|j| - |t|..] == t;
      if |parts| == 2 {
        assert t == parts[1];
        assert j[|j| - |t| - 1] == sep;
      } else {
        var l := parts[|parts| - 1];
        assert l == parts[1..][|parts[1..]| - 1];
        assert j[|j| - |l| - 1] == t[|t| - |l| - 1];
      }
    }
  }

  // ---------------------------------------------------------------------
  // substrings

  predicate IsPrefix(p: string, s: string)
  {
    |p| <= |s| && s[..|p|] == p
  }

  /** `q` occurs in `s` starting at position `i`. */
  predicate OccursAt(s: string, q: string, i: int)
  {
    0 <= i && i + |q| <= |s| && s[i..i + |q|] == q
  }

  lemma OccursAtShift(s: string, q: string, i: int)
    requires |s| > 0 && i >= 0
    ensures OccursAt(s, q, i + 1) <==> OccursAt(s[1..], q, i)
  {
    if 0 <= i && i + 1 + |q| <= |s| {
      var a, b := s[i + 1..i + 1 + |q|], s[1..][i..i + |q|];
      assert |a| == |b|;
      assert forall k :: 0 <= k < |a| ==> a[k] == b[k];
      assert a == b;
    }
  }

  /** JavaScript `s.includes(q)`. */
  function Includes(s: string, q: string): (r: bool)
    ensures r <==> exists i :: OccursAt(s, q, i)
    decreases |s|
  {
    if IsPrefix(q, s) then
      assert OccursAt(s, q, 0);
      true
    else if |s| == 0 then false
    else
      var r := Includes(s[1..], q);
      IncludesStep(s, q);
      r
  }

  lemma IncludesStep(s: string, q: string)
    requires |s| > 0
    requires !IsPrefix(q, s)
    ensures (exists i :: OccursAt(s, q, i)) <==> (exists i :: OccursAt(s[1..], q, i))
  {
    if exists i :: OccursAt(s, q, i) {
      var i :| OccursAt(s, q, i);
      assert i != 0;
      OccursAtShift(s, q, i - 1);
    }
    if exists i :: OccursAt(s[1..], q, i) {
      var i :| OccursAt(s[1..], q, i);
      OccursAtShift(s, q, i);
    }
  }

  /** The position of the first occurrence of `sep` in `s`, if any. */
  function IndexOf(s: string, sep: string): (r: Option<nat>)
    ensures r.Some? ==> OccursAt(s, sep, r.value)
    ensures r.Some? ==> forall j :: 0 <= j < r.value ==> !OccursAt(s, sep, j)
    ensures r.None? ==> forall j :: !OccursAt(s, sep, j)
    decreases |s|
  {
    if IsPrefix(sep, s) then
      assert OccursAt(s, sep, 0);
      Some(0)
    else if |s| == 0 then None
    else
      var r := IndexOf(s[1..], sep);
      assert !OccursAt(s, sep, 0);
      match r
      case None =>
        assert forall j :: !OccursAt(s, sep, j) by {
          forall j ensures !OccursAt(s, sep, j) {
            if j > 0 { OccursAtShift(s, sep, j - 1); }
          }
        }
        None
      case Some(k) =>
        OccursAtShift(s, sep, k);
        assert forall j :: 0 <= j < k + 1 ==> !OccursAt(s, sep, j) by {
          forall j | 0 <= j < k + 1 ensures !OccursAt(s, sep, j) {
            if j > 0 { OccursAtShift(s, sep, j - 1); }
          }
        }
        Some(k + 1)
  }

  /** An occurrence inside a prefix is an occurrence in the whole. */
  lemma OccursInPrefix(s: string, n: nat, q: string, k: int)
    requires n <= |s| && OccursAt(s[..n], q, k)
    ensures OccursAt(s, q, k) && k + |q| <= n
  {
    assert s[k..k + |q|] == s[..n][k..k + |q|];
  }

  /** JavaScript `s.split(sep)[1]` for a non-empty multi-character
      separator: the text between the first and the second occurrence of
      `sep` (or the end of `s`), and `undefined` when `sep` does not occur. */
  function SplitSecond(s: string, sep: string): (r: Option<string>)
    requires |sep| > 0
    ensures r.None? <==> !Includes(s, sep)
    ensures r.Some? ==> !Includes(r.value, sep)
    ensures r.Some? ==>
              var i := IndexOf(s, sep).value; var rest := s[i + |sep|..];
              && IsPrefix(r.value, rest)
              && (|r.value| == |rest| || OccursAt(rest, sep, |r.value|))
              && forall k :: 0 <= k < |r.value| ==> !OccursAt(rest, sep, k)
  {
    match IndexOf(s, sep)
    case None => None
    case Some(i) =>
      var after := s[i + |sep|..];
      match IndexOf(after, sep)
      case None =>
        assert after[..|after|] == after;
        Some(after)
      case Some(j) =>
        var seg := after[..j];
        forall k | OccursAt(seg, sep, k) ensures false {
          OccursInPrefix(after, j, sep, k);
        }
        Some(seg)
  }

  // ---------------------------------------------------------------------
  // case

  /** ASCII `toLowerCase` on one character; other characters are kept. */
  function LowerChar(c: char): char
  {
    if 'A' <= c <= 'Z' then (c as int - 'A' as int + 'a' as int) as char else c
  }

  function Lower(s: string): (r: string)
    ensures |r| == |s|
    ensures forall i :: 0 <= i < |s| ==> r[i] == LowerChar(s[i])
  {
    seq(|s|, i requires 0 <= i < |s| => LowerChar(s[i]))
  }

  // ---------------------------------------------------------------------
  // length

  /** JavaScript `length`: the number of UTF-16 code units, one for a
      character of the Basic Multilingual Plane and two (a surrogate pair)
      for any other. */
  function Utf16Length(s: string): (n: nat)
    ensures |s| <= n <= 2 * |s|
    ensures (forall i :: 0 <= i < |s| ==> s[i] as int < 0x1_0000) ==> n == |s|
    ensures |s| == 1 ==> n == if s[0] as int < 0x1_0000 then 1 else 2
    decreases |s|
  {
    if |s| == 0 then 0
    else
      assert forall i :: 1 <= i < |s| ==> s[1..][i - 1] == s[i];
      (if s[0] as int < 0x1_0000 then 1 else 2) + Utf16Length(s[1..])
  }

  /** The length of a concatenation is the sum of the lengths: with the
      one-character case, this fixes the count character by character. */
  lemma {:induction false} Utf16LengthAppend(a: string, b: string)
    ensures Utf16Length(a + b) == Utf16Length(a) + Utf16Length(b)
    decreases |a|
  {
    if |a| == 0 {
      assert a + b == b;
    } else {
      assert (a + b)[0] == a[0];
      assert (a + b)[1..] == a[1..] + b;
      Utf16LengthAppend(a[1..], b);
    }
  }

  // ---------------------------------------------------------------------
  // decimal rendering

  predicate IsDigit(c: char)
  {
    '0' <= c <= '9'
  }

  function DigitChar(d: nat): char
    requires d < 10
  {
    ('0' as int + d) as char
  }

  /** The decimal digits of `n`, most significant first, with no leading
      zero (so `0` renders as "0"). */
  function NatToString(n: nat): (r: string)
    ensures |r| >= 1
    ensures forall i :: 0 <= i < |r| ==> IsDigit(r[i])
    ensures |r| > 1 ==> r[0] != '0'
  {
    if n < 10 then [DigitChar(n)]
    else NatToString(n / 10) + [DigitChar(n % 10)]
  }

  /** The value of a string of decimal digits. */
  function DecimalValue(s: string): nat
    requires forall i :: 0 <= i < |s| ==> IsDigit(s[i])
  {
    if |s| == 0 then 0
    else
      assert IsDigit(s[|s| - 1]);
      10 * DecimalValue(s[..|s| - 1]) + (s[|s| - 1] as int - '0' as int)
  }

  /** Reading back a rendered number gives the number: distinct timestamps
      give distinct renderings. */
  lemma {:induction false} NatToStringRoundTrip(n: nat)
    ensures DecimalValue(NatToString(n)) == n
  {
    if n >= 10 {
      NatToStringRoundTrip(n / 10);
      var s := NatToString(n);
      assert s[..|s| - 1] == NatToString(n / 10);
    }
  }
}

=== FILE: update_password.dfy ===
/** The set-a-new-password form: the two local checks (in their order),
    the session check, and the outcome of the update. The session lookup
    and the update call are inputs. */
module UpdatePassword {
  import Strings

  /** What the auth service does with the update: accepts it, answers
      with an error, or throws. */
  datatype UpdateAnswer = UpdateOk | UpdateError(message: string) | UpdateThrew(message: string)

  datatype Outcome =
    | Mismatch          // "Passwords do not match!"
    | TooShort          // "Password must be at least 6 characters long."
    | SessionExpired    // sent back to the forgot-password page
    | UpdateFailed(message: string)
    | Unexpected(message: string)
    | Updated           // sent on to the sign-in page

  const MinLength := 6

  /** JavaScript's `length`: UTF-16 code units. */
  function Length(password: string): nat
  {
    Strings.Utf16Length(password)
  }

  /** The update is attempted for these outcomes only. */
  predicate Attempted(o: Outcome)
  {
    o.UpdateFailed? || o.Unexpected? || o.Updated?
  }

  function HandleSubmit(password: string, confirm: string, hasSession: bool, answer: UpdateAnswer): (r: Outcome)
    ensures password != confirm ==> r == Mismatch
    ensures password == confirm && Length(password) < MinLength ==> r == TooShort
    ensures Attempted(r) <==> password == confirm && Length(password) >= MinLength && hasSession
    ensures r == Updated <==> password == confirm && Length(password) >= MinLength && hasSession && answer.UpdateOk?
    ensures !hasSession ==> !Attempted(r)
  {
    if password != confirm then Mismatch
    else if Length(password) < MinLength then TooShort
    else if !hasSession then SessionExpired
    else match answer
      case UpdateOk => Updated
      case UpdateError(m) => UpdateFailed(m)
      case UpdateThrew(m) => Unexpected("An error occurred: " + m)
  }

  /** Three characters outside the Basic Multilingual Plane are six code
      units: such a password passes the length check and the update is
      attempted. */
  lemma WidePasswordAttempted(hasSession: bool, answer: UpdateAnswer)
    requires hasSession
    ensures var p := "\U{1F600}\U{1F600}\U{1F600}";
            Attempted(HandleSubmit(p, p, hasSession, answer))
  {
    assert Length("\U{1F600}\U{1F600}\U{1F600}") == 6;
  }

  /** The service's answer is only consulted once the update is attempted:
      an outcome that is not an attempt is the same whatever it would have
      answered, and an attempt with one answer is an attempt with any. */
  lemma AnswerOnlyMattersWhenAttempted(password: string, confirm: string, hasSession: bool,
                                       a1: UpdateAnswer, a2: UpdateAnswer)
    ensures !Attempted(HandleSubmit(password, confirm, hasSession, a1)) ==>
              HandleSubmit(password, confirm, hasSession, a1) == HandleSubmit(password, confirm, hasSession, a2)
    ensures Attempted(HandleSubmit(password, confirm, hasSession, a1)) ==>
              Attempted(HandleSubmit(password, confirm, hasSession, a2))
  {
  }
}

=== FILE: verification_page.dfy ===
/** The artisan verification form: picking the ID proof, the selfie with
    the work and the work samples (each pick runs the image checks), and
    submitting the documents. Storage uploads and the authenticated user are
    inputs; the stored record is the result. */
module VerificationPage {
  import opened Common
  import opened Strings
  import opened ImageVerification

  /** A file chosen in the browser: its name, size in bytes, what decoding
      its bytes yields, and its last-modified timestamp. */
  datatype File = File(name: string, size: nat, decode: Decode, lastModified: int)

  datatype Form = Form(
    idFile: Option<File>,
    workSamples: seq<File>,
    selfieFile: Option<File>,
    idStatus: Option<CheckResult>,
    selfieStatus: Option<CheckResult>)

  const EmptyForm := Form(None, [], None, None, None)

  /** Which of the three file inputs changed. */
  datatype Slot = IdSlot | WorkSlot | SelfieSlot

  /** The selfie verdict: an error from either check wins (with the quality
      details when they are truthy, else the safety details); otherwise a
      quality warning is shown as it is; otherwise all is well. */
  function CombineSelfie(quality: CheckResult, safety: CheckResult): (r: CheckResult)
    ensures r.status == Error <==> quality.status == Error || safety.status == Error
    ensures r.status == Error ==>
              r.message == "Issue Found" &&
              r.details == (if Truthy(quality.details) then quality.details else safety.details)
    ensures quality.status != Error && safety.status != Error && quality.status == Warning ==> r == quality
    ensures quality.status == Success && safety.status == Success ==>
              r == CheckResult(Success, "Perfect!", Some("You look great!"))
  {
    if quality.status == Error || safety.status == Error then
      CheckResult(Error, "Issue Found", OrElse(quality.details, safety.details))
    else if quality.status == Warning then quality
    else CheckResult(Success, "Perfect!", Some("You look great!"))
  }

  /** The verdict shown for a selfie file. */
  function SelfieVerdict(f: File): (r: CheckResult)
    ensures r.status == Error <==> f.size > MaxSize || (MinSize <= f.size && f.decode.Undecodable?)
    ensures r.status == Warning ==> r == VerifyImageQuality(f.size, f.decode)
    ensures r.status == Success ==> r.message == "Perfect!"
  {
    CombineSelfie(VerifyImageQuality(f.size, f.decode), ContentSafety())
  }

  /** Because the safety check always passes, the selfie's traffic light is
      exactly its quality light, and an error keeps the quality details. */
  lemma SelfieVerdictFollowsQuality(f: File)
    ensures SelfieVerdict(f).status == VerifyImageQuality(f.size, f.decode).status
    ensures SelfieVerdict(f).status == Error ==>
              SelfieVerdict(f).details == VerifyImageQuality(f.size, f.decode).details
    ensures SelfieVerdict(f).status == Warning ==> SelfieVerdict(f) == VerifyImageQuality(f.size, f.decode)
  {
  }

  /** A change on one of the file inputs. An empty pick changes nothing; the
      ID and selfie inputs keep the first file and record its verdict; the
      work-sample input replaces the whole selection. */
  function HandleFileChange(form: Form, slot: Slot, files: seq<File>): (r: Form)
    ensures |files| == 0 ==> r == form
    ensures |files| > 0 && slot == IdSlot ==>
              r == form.(idFile := Some(files[0]), idStatus := Some(VerifyImageQuality(files[0].size, files[0].decode)))
    ensures |files| > 0 && slot == SelfieSlot ==>
              r.selfieFile == Some(files[0]) && r.selfieStatus == Some(SelfieVerdict(files[0])) &&
              r.idFile == form.idFile && r.workSamples == form.workSamples && r.idStatus == form.idStatus
    ensures |files| > 0 && slot == WorkSlot ==> r == form.(workSamples := files)
  {
    if |files| == 0 then form
    else match slot
      case IdSlot =>
        form.(idFile := Some(files[0]), idStatus := Some(VerifyImageQuality(files[0].size, files[0].decode)))
      case SelfieSlot =>
        form.(selfieFile := Some(files[0]), selfieStatus := Some(SelfieVerdict(files[0])))
      case WorkSlot =>
        form.(workSamples := files)
  }

  /** Picking work samples twice keeps only the second pick. */
  lemma WorkSamplesReplaced(form: Form, first: seq<File>, second: seq<File>)
    requires |second| > 0
    ensures HandleFileChange(HandleFileChange(form, WorkSlot, first), WorkSlot, second).workSamples == second
  {
  }

  // -----------------------------------------------------------------------
  // submission

  /** What storage answers to one upload: a failure, or the stored path. */
  datatype Upload = UploadFailed | Uploaded(path: string)

  /** The row written to the verifications table. */
  datatype Record = Record(userId: string, idProofUrl: string, workSampleUrls: seq<string>)

  datatype Outcome =
    | Refused(reason: string)   // a guard stopped the submission before any upload
    | Failed                    // not signed in, or an upload failed
    | Submitted(record: Record)

  /** The storage name of an uploaded document:
      `<user>/<kind>_<timestamp>_<file name>`. */
  function DocumentName(userId: string, kind: string, now: nat, fileName: string): (r: string)
    ensures r == userId + "/" + kind + "_" + NatToString(now) + "_" + fileName
    ensures IsPrefix(userId + "/" + kind + "_", r)
    ensures |r| >= |fileName| && r[|r| - |fileName|..] == fileName
    ensures |r| > |userId| && r[|userId|] == '/'
  {
    var r := userId + "/" + kind + "_" + NatToString(now) + "_" + fileName;
    assert r[..|userId + "/" + kind + "_"|] == userId + "/" + kind + "_";
    r
  }

  /** The timestamp keeps names apart: the same document uploaded at two
      different times gets two different storage names. */
  lemma DistinctTimesDistinctNames(userId: string, kind: string, fileName: string, t1: nat, t2: nat)
    requires t1 != t2
    ensures DocumentName(userId, kind, t1, fileName) != DocumentName(userId, kind, t2, fileName)
  {
    var p := userId + "/" + kind + "_";
    var d1, d2 := NatToString(t1), NatToString(t2);
    var r1, r2 := DocumentName(userId, kind, t1, fileName), DocumentName(userId, kind, t2, fileName);
    if r1 == r2 {
      assert |d1| == |d2|;
      assert r1 == p + d1 + ("_" + fileName);
      assert r2 == p + d2 + ("_" + fileName);
      assert r1[|p|..|p| + |d1|] == d1;
      assert r2[|p|..|p| + |d2|] == d2;
      NatToStringRoundTrip(t1);
      NatToStringRoundTrip(t2);
    }
  }

  /** The paths of the sample uploads, in order, or `None` when one fails
      (the first failure aborts the loop). */
  function SamplePaths(uploads: seq<Upload>): (r: Option<seq<string>>)
    ensures r.Some? <==> forall i :: 0 <= i < |uploads| ==> uploads[i].Uploaded?
    ensures r.Some? ==> |r.value| == |uploads|
    ensures r.Some? ==> forall i :: 0 <= i < |uploads| ==> r.value[i] == uploads[i].path
  {
    if |uploads| == 0 then Some([])
    else match uploads[0]
      case UploadFailed => None
      case Uploaded(p) =>
        match SamplePaths(uploads[1..])
        case None => None
        case Some(rest) => Some([p] + rest)
  }

  /** Submission as the page does it. The ID file is required first, then
      the selfie; then the user must be signed in and every upload (ID,
      selfie, each sample in order) must succeed. `sampleUploads[i]` is what
      storage answers for the i-th work sample. The answer to the final
      insert, `insertOk`, is not inspected: a failed insert still reports
      success (see `SubmitIgnoresInsertFailure`). */
  function HandleUpload(form: Form, user: Option<string>, idUpload: Upload, selfieUpload: Upload,
                        sampleUploads: seq<Upload>, insertOk: bool): (r: Outcome)
    requires |sampleUploads| == |form.workSamples|
    ensures form.idFile.None? ==> r == Refused("Please upload an ID proof")
    ensures form.idFile.Some? && form.selfieFile.None? ==> r == Refused("Please upload a selfie with your work")
    ensures form.idFile.Some? && form.selfieFile.Some? ==> !r.Refused?
    ensures r.Submitted? <==>
              form.idFile.Some? && form.selfieFile.Some? && user.Some? &&
              idUpload.Uploaded? && selfieUpload.Uploaded? && SamplePaths(sampleUploads).Some?
    ensures r.Submitted? ==> r.record.userId == user.value && r.record.idProofUrl == idUpload.path
    ensures r.Submitted? ==> ValidDocumentList(r.record.workSampleUrls, sampleUploads, selfieUpload.path)
  {
    if form.idFile.None? then Refused("Please upload an ID proof")
    else if form.selfieFile.None? then Refused("Please upload a selfie with your work")
    else if user.None? || idUpload.UploadFailed? || selfieUpload.UploadFailed? then Failed
    else match SamplePaths(sampleUploads)
      case None => Failed
      case Some(paths) => Submitted(Record(user.value, idUpload.path, paths + [selfieUpload.path]))
  }

  /** The stored document list: the sample paths in upload order, then the
      selfie path, which is therefore its last element. */
  predicate ValidDocumentList(urls: seq<string>, sampleUploads: seq<Upload>, selfiePath: string)
  {
    && |urls| == |sampleUploads| + 1
    && (forall i :: 0 <= i < |sampleUploads| ==> sampleUploads[i].Uploaded? && urls[i] == sampleUploads[i].path)
    && urls[|urls| - 1] == selfiePath
  }

  /** The admin dashboard links the last stored document as the selfie; the
      stored order makes that link point at the selfie upload. */
  function AdminSelfieLink(r: Record): (link: Option<string>)
    ensures link.None? <==> |r.workSampleUrls| == 0
    ensures link.Some? ==> link.value in r.workSampleUrls
    ensures link.Some? ==> link.value == r.workSampleUrls[|r.workSampleUrls| - 1]
  {
    if |r.workSampleUrls| == 0 then None else Some(r.workSampleUrls[|r.workSampleUrls| - 1])
  }

  lemma AdminSeesSelfie(form: Form, user: Option<string>, idUpload: Upload, selfieUpload: Upload,
                        sampleUploads: seq<Upload>, insertOk: bool)
    requires |sampleUploads| == |form.workSamples|
    requires HandleUpload(form, user, idUpload, selfieUpload, sampleUploads, insertOk).Submitted?
    ensures AdminSelfieLink(HandleUpload(form, user, idUpload, selfieUpload, sampleUploads, insertOk).record)
            == Some(selfieUpload.path)
  {
  }

  /** As written, the insert's answer is discarded: with every upload
      succeeding and the insert failing, the page still reports success. */
  lemma SubmitIgnoresInsertFailure()
    ensures var form := Form(Some(File("id.png", 100000, Decoded(900, 900), 0)), [],
                             Some(File("me.png", 100000, Decoded(900, 900), 0)), None, None);
            HandleUpload(form, Some("u1"), Uploaded("u1/id"), Uploaded("u1/selfie"), [], false).Submitted?
  {
  }

  /** The submission with the insert's answer taken into account: it
      reports success only when the record was actually stored. */
  function HandleUploadChecked(form: Form, user: Option<string>, idUpload: Upload, selfieUpload: Upload,
                               sampleUploads: seq<Upload>, insertOk: bool): (r: Outcome)
    requires |sampleUploads| == |form.workSamples|
    ensures r.Submitted? ==> insertOk
    ensures r.Submitted? <==>
              HandleUpload(form, user, idUpload, selfieUpload, sampleUploads, insertOk).Submitted? && insertOk
    ensures r.Submitted? ==> r == HandleUpload(form, user, idUpload, selfieUpload, sampleUploads, insertOk)
    ensures r.Refused? <==> HandleUpload(form, user, idUpload, selfieUpload, sampleUploads, insertOk).Refused?
  {
    var r := HandleUpload(form, user, idUpload, selfieUpload, sampleUploads, insertOk);
    if r.Submitted? && !insertOk then Failed else r
  }
}
